=== FILE: README.md ===
# Windows Docker provider for Daytona — a Dafny model of its decision layer

The provider plugs a Docker host into Daytona. A target is either the local
Docker socket (the target named `local`) or a remote machine reached over
SSH. This project models the pure logic underneath the provider's glue code:

- **Target options** (`Targets`, from `pkg/types/targets.go`):
  - the all-optional `TargetOptions` record;
  - the static target manifest, with its keys, types, defaults, masking and
    the "disabled for `local`" pattern;
  - `ParseTargetOptions`, i.e. how `encoding/json` fills the record's
    pointer fields from a decoded JSON value, including every error case;
  - the reverse direction, which writes a record out.
- **Agent start** (`DockerStart`, from `pkg/docker/start.go`):
  - the `io.MultiWriter` tee of the exec output into the pipe and the log,
    including how the pipe holds writes back;
  - the `bufio.Scanner` line splitting of the pipe;
  - the two watcher goroutines, each with its own signal rule;
  - the race between them, modelled as "the first signal along an
    interleaved trace of events wins, and no signal means the call blocks";
  - the two-step `StartProject`.
- **Provider** (`Provider`, from `pkg/provider/provider.go`):
  - the socket scratch directory and state captured by `Initialize`;
  - the provider's own local-or-remote choices, made on the target's name;
  - the project and workspace directories;
  - the SSH session configuration;
  - the loopback environment override;
  - the download-URL rewrite for local, non-devcontainer builds;
  - the preset targets;
  - the early-return pipelines of `StartProject`, `DestroyProject` and
    `DestroyWorkspace`.

A lifecycle operation is modelled as the `Run` it performs: the steps it
attempted, in order, each with its outcome, and whether it opened and
closed an SSH session. Every operation has two reference definitions:
- a plan: the steps it takes when nothing fails;
- a table of answers: for every step of the plan, what the call that step
  makes answers, computed from that call alone.

The contracts tie the run to both (`StopsAtFirstFailure`). The run is the
plan cut after the first step whose answer is not success, and each step
ends with its own answer. So the operation returns the first failing call's
error, and a successful run is the whole plan. When every earlier step
succeeds, the operation's outcome is whatever the Docker start or removal
answers, including waiting forever.

Foreign calls are parameters:
- The Docker client, SSH library, builder detection, `url.Parse`/`String`,
  `os.RemoveAll`/`MkdirAll` and the image start are fields of the
  `Runtime` and `FileSystem` records. Each answers with the value or error
  the call returns.
- What the container's start-up command prints and when it exits is the
  event trace `agentTrace` returns.
- How far the scanner reads into the output is the parameter `read` of the
  tee.
- The operating system and `os.TempDir` are the `Host` record.

Behaviours of the code worth knowing. Items 1-3 and 5-7 name the members
whose contracts state them; item 4 is an observation about the source's
call graph, not a proof:

1. The start-up command's output goes into a pipe whose writer is never
   closed, so the scanner never reaches end of input. A last line without
   a newline is therefore never scanned (`UnterminatedLineIsNotScanned`).
2. A start-up command that exits with status 0 without printing the marker
   produces no signal at all, so `startDaytonaAgent` waits forever
   (`CleanExitWithoutMarkerBlocks`). In the same way, a command that prints
   the marker and never exits still reports success
   (`MarkerWithoutExitIsReady`).
3. Each chunk of output goes to the pipe before the log. A pipe write
   returns only once the scanner has read all of it, and once the scanner
   stops nothing reads the pipe again. So the chunk the scanner stopped in,
   and everything after it, never reach the log (`Tee`). This can drop the
   very line that reported the agent as started (see Findings).
4. `setLocalEnvOverride` exists but nothing calls it. It is modelled on its
   own (`LocalEnvOverride`), and no operation applies it.
5. The provider chooses between local and remote handling on the target's
   name alone (`IsLocal`): for the directories (`provider.go:333`, `:347`;
   `GetWorkspaceDir`, `GetProjectDir`), the SSH session (`provider.go:361`;
   `SshSessionFor`) and the URL rewrite (`provider.go:171`;
   `DownloadUrlRewriteRule`). Which Docker endpoint the client talks to is
   not the provider's choice: `getClient` hands the parsed options to
   `client.GetClient` (`provider.go:278`), which is outside the model.
6. Once the client has opened, the options have parsed. So the directory
   lookup and the SSH configuration cannot fail afterwards. Only the SSH
   library itself can refuse the session (`StartProjectRemoteFailures`).
7. A line of 64 KiB or more, ahead of any line holding the marker, makes
   the scanner give up without a signal and stop reading the pipe. If the
   start-up command writes anything after it, that write never returns,
   so neither does the exec call, and `startDaytonaAgent` waits forever
   (`LongLineBeforeMarkerBlocks`).

Source paths below are relative to the repository root.

## Model

| member | source | states |
|---|---|---|
| Strings.ContainsIffOccurs | pkg/docker/start.go:55 | `strings.Contains` holds exactly when the marker occurs at some position of the line |
| Strings.ParseDecimalInvertsDecimal | pkg/provider/provider.go:328-329 | the `%d` rendering of a port reads back as the same number |
| Strings.SplitRecoversJoin | pkg/provider/provider.go:342-343 | splitting a `path.Join` result at the separator gives back exactly its non-empty elements, when no element holds the separator |
| Strings.HostPortRoundTrip | pkg/provider/provider.go:183 | `host:port` built with `%d` splits back into the same host and port |
| Targets.KeysDistinct | pkg/types/targets.go:10-16 | no two option fields share a JSON tag |
| Targets.Manifest | pkg/types/targets.go:19-48 | the manifest has exactly the five keys Remote Hostname, Remote Port, Remote User, Remote Password and Sock Path; Remote Private Key Path and Workspace Data Dir are options but not in the manifest |
| Targets.ManifestRendering | pkg/types/targets.go:21-46 | a property carries `^local$` exactly when its key starts with "Remote " and has no pattern otherwise; only the password is masked; only the port is an int |
| Targets.ManifestDefaults | pkg/types/targets.go:21-46 | the defaults are localhost, Docker, daytona123, /var/run/docker.sock and the text 2223, which reads as the port 2223 |
| Targets.ManifestDisabledOnlyForLocal | pkg/types/targets.go:24-46 | a property is hidden for a target name exactly when it is a remote property and the name is `local` |
| Targets.ParseTargetOptions | pkg/types/targets.go:50-58 | covers every case: a syntax error is returned unchanged; `null` gives the empty record; any other non-object is a type error; in an object the parse succeeds exactly when every field's value fits its type, each field is then set from its own key alone, and a failure names a key whose value does not fit |
| Targets.DecodeObjectSpec | pkg/types/targets.go:9-17 | decoding an object field by field succeeds exactly when all seven fields fit, and a failure is the type error of a present, ill-typed key |
| Targets.Encode | pkg/types/targets.go:9-17 | with `omitempty`, a record is written as an object holding only option keys. A key is present exactly when its field is non-nil, no entry is `null`, and each present field carries its value |
| Targets.ParseInvertsEncode | pkg/types/targets.go:9-17 | parsing what a record is written as gives the record back, when its port fits Go's `int` |
| Targets.ParseIgnoresUnknownKeysAndNulls | pkg/types/targets.go:50-58 | keys that name no field, and `null` values, do not change the parse |
| DockerStart.Tee | pkg/docker/start.go:32-33 | the scanner's side of the pipe is the first `read` bytes of the output. The log holds whole chunks only, and stops before the first chunk the scanner did not read to its end. It never runs ahead of the scanner, and it holds all of the output only when the scanner read all of it |
| DockerStart.ScanTokens | pkg/docker/start.go:53-54 | every scanned line is free of newlines and shorter than the scanner's 64 KiB buffer |
| DockerStart.ScanTokensStep | pkg/docker/start.go:53-54 | a complete line at the front of the pipe is the next line scanned |
| DockerStart.ScanTokensDropsCR | pkg/docker/start.go:52-54 | a line ended by CR LF is scanned without its CR, when it fits in the buffer |
| DockerStart.ScanTokensOfPrefix | pkg/docker/start.go:52-54 | scanning more of the output only adds lines after those already scanned |
| DockerStart.ReadLimitOfJoinedLines | pkg/docker/start.go:52-54 | complete lines that fit in the buffer never stop the scanner: it can read past all of them |
| DockerStart.OverlongLineStopsTheScan | pkg/docker/start.go:52-58 | a buffer's worth of output with no newline yields no line, and the scanner reads no more than that buffer |
| DockerStart.ScanTokensOfJoinedLines | pkg/docker/start.go:53-54 | newline-terminated lines written to the pipe are scanned back one for one, in order |
| DockerStart.UnterminatedLineIsNotScanned | pkg/docker/start.go:32-54 | since the pipe is never closed, a last line still missing its newline is never scanned |
| DockerStart.ScannedTextIsInOutput | pkg/docker/start.go:53-55 | any text found in a scanned line occurs in the output written to the pipe |
| DockerStart.CompletionSignal | pkg/docker/start.go:42-49 | the completion watcher signals the exec error as it is, or an error whose text is exactly the standard error on a non-zero exit, and nothing on exit 0 |
| DockerStart.MarkerLine | pkg/docker/start.go:54-58 | the line watcher stops at the first line that contains the marker; with no such line it never signals |
| DockerStart.FirstSignalAt | pkg/docker/start.go:30-62 | locates the first event along the trace at which either watcher signals |
| DockerStart.StartDaytonaAgent | pkg/docker/start.go:29-63 | the result is exactly the first signal on the trace, and the call blocks exactly when no event signals |
| DockerStart.BlocksIffBothWatchersSilent | pkg/docker/start.go:42-62 | the call blocks exactly when no scanned line holds the marker and the exec, if it returned, returned exit 0 |
| DockerStart.LaterEventsAreDiscarded | pkg/docker/start.go:62 | once a signal is received, nothing later on the trace changes the result |
| DockerStart.MarkerWithoutExitIsReady | pkg/docker/start.go:52-58 | a marker line brings success even if the command never exits |
| DockerStart.EarlyCrashFails | pkg/docker/start.go:47-49 | a non-zero exit before any marker line fails with the standard error verbatim |
| DockerStart.CleanExitWithoutMarkerBlocks | pkg/docker/start.go:47-62 | exit 0 with no marker line leaves the call waiting forever |
| DockerStart.ReadyMeansMarkerWasRead | pkg/docker/start.go:32-58 | when the agent is reported ready, the marker is in what the scanner read from the pipe |
| DockerStart.ExecReturnedMeansAllLogged | pkg/docker/start.go:33-41 | once the exec call has returned, the log holds all of its output |
| DockerStart.MarkerCanMissTheLog | pkg/docker/start.go:32-58 | one write of the marker line followed by more output without a newline, of which the scanner reads the marker line but not the whole write (for example 5000 more bytes, with `bufio`'s first read of 4096): the trace follows the output, the agent is reported ready, and the log stays empty |
| DockerStart.LongLineBeforeMarkerBlocks | pkg/docker/start.go:31-62 | with complete marker-free lines, then a line too long for the scanner, then more output, the exec call never returns and the start waits forever |
| DockerStart.TeeLogFirst | pkg/docker/start.go:33 | with the log written before the pipe, the scanner sees the same bytes, and the log holds everything the scanner read while staying a prefix of the output |
| DockerStart.LogFirstReadyMeansMarkerWasLogged | pkg/docker/start.go:32-58 | with the log written first, a ready report means the marker reached the log |
| DockerStart.StartProject | pkg/docker/start.go:17-27 | the agent start is attempted exactly when the image start succeeded; otherwise the image start's error is the result |
| Provider.Initialize | pkg/provider/provider.go:42-73 | the scratch directory is the temporary directory joined with target-socks. A Windows host with no temporary directory fails with "could not determine temp dir" and the provider is left unchanged. The remove and mkdir errors are returned in that order, with only the scratch directory recorded. On success every field holds the request's value |
| Provider.UnixSockDir | pkg/provider/provider.go:43-68 | outside Windows the scratch directory is /tmp/target-socks whatever the host's temp dir, and the call fails exactly when clearing or recreating that directory fails |
| Provider.InitializeForgetsPreviousState | pkg/provider/provider.go:63-70 | a successful initialization does not depend on the provider's previous state |
| Provider.GetWorkspaceDir | pkg/provider/provider.go:346-358 | local: base path and id joined with the host separator; remote: the options' data directory and id joined with '/'; a remote parse error is returned unchanged |
| Provider.GetProjectDir | pkg/provider/provider.go:332-344 | local targets always get a directory; a remote target fails exactly when its options fail to parse, with that error; the directory joins root, workspace id and "<id>-<name>" |
| Provider.ProjectDirExtendsWorkspaceDir | pkg/provider/provider.go:332-358 | in both modes the project directory is the workspace directory extended by one "<id>-<name>" element, and one exists exactly when the other does |
| Provider.ProjectDirSplits | pkg/provider/provider.go:342-343 | splitting a project directory gives back root, workspace id and directory name when none holds the separator |
| Provider.SshSessionFor | pkg/provider/provider.go:360-377 | no session and no error for `local` whatever its options; otherwise the parse error, or a configuration carrying hostname, port and user, with password and key path passed on as they are |
| Provider.LoopbackUrlNamesPort | pkg/provider/provider.go:327-330 | a loopback URL is http to host.docker.internal at the very port it was built from |
| Provider.LocalEnvOverride | pkg/provider/provider.go:327-330 | sets exactly DAYTONA_SERVER_URL and DAYTONA_SERVER_API_URL to the loopback URLs of the server and API ports and keeps every other variable |
| Provider.LocalEnvOverrideIdempotent | pkg/provider/provider.go:327-330 | applying the override twice equals applying it once |
| Provider.RewriteForLocal | pkg/provider/provider.go:183-185 | the rewritten URL is http, its host splits into host.docker.internal and the API port, and the rest of the URL is kept |
| Provider.RewriteForLocalIdempotent | pkg/provider/provider.go:183-185 | rewriting a rewritten URL changes nothing |
| Provider.DownloadUrlFor | pkg/provider/provider.go:168-186 | the configured URL is handed over unchanged unless the target is local and the detected builder is not devcontainer. In that case a URL that parses is handed over with scheme http and host host.docker.internal at the API port, the rest kept |
| Provider.DownloadUrlRewriteRule | pkg/provider/provider.go:168-186 | the handed-over URL differs from the configured one only for a local target whose builder is not devcontainer. When the URL library reads the one rewritten URL back as it was written, the handed-over URL reads back as http to host.docker.internal at the API port, with the rest of the configured URL kept |
| Provider.GetInfo | pkg/provider/provider.go:75-83 | the provider is named windows-provider, labelled Windows, with the given version |
| Provider.GetPresetTargets | pkg/provider/provider.go:89-103 | exactly one preset target, named local, carrying the provider's info |
| Provider.PresetSetsOnlySockPath | pkg/provider/provider.go:95-101 | the preset's options parse to a record whose only set field is Sock Path, at the manifest's default |
| Provider.StartLocal | pkg/provider/provider.go:171-207 | local branch: builder detection, then the URL parse unless the builder is devcontainer, then the Docker start without SSH. Each step ends with its own call's answer, the branch stops at the first that fails, and it opens no session |
| Provider.StartRemote | pkg/provider/provider.go:187-207 | remote branch: the SSH step answers with the parse error or the SSH library's answer, and the Docker start follows only when the session opened. A session is open exactly when the configuration parsed and the library accepted it, and it is closed when the operation returns |
| Provider.GetClient | pkg/provider/provider.go:272-286 | succeeds exactly when the options parse and the Docker client opens on them and the scratch directory; on success it returns the parsed options; a failure carries the parse error, or else the error the client returned |
| Provider.StartProject | pkg/provider/provider.go:149-217 | a client error ends the run at once. Otherwise the run is the plan cut after the first step whose own call fails (directory, builder detection, URL parse, SSH session or Docker start), and that call's answer is the outcome. A session is open exactly when a remote target's session was accepted, and it is released on return |
| Provider.StartAfterClient | pkg/provider/provider.go:155-207 | past the client: the run is the plan cut at the first failing call, the directory step always succeeds, and a session is open exactly when a remote target's session was accepted |
| Provider.StartProjectLocalFailures | pkg/provider/provider.go:171-182 | a failing builder detection, or a failing URL parse for a builder other than devcontainer, ends `StartProject` at that step with that call's error |
| Provider.StartProjectRemoteFailures | pkg/provider/provider.go:187-192 | once the client is open a remote target always has an SSH configuration; a session the SSH library refuses ends `StartProject` at the SSH step with its error and leaves no session open |
| Provider.StartProjectReachesDocker | pkg/provider/provider.go:195-207 | when every earlier step succeeded, the whole plan runs and the outcome is the Docker start's answer for the project directory and the handed-over URL, waiting forever included |
| Provider.StartProjectBlocks | pkg/provider/provider.go:195-207 | `StartProject` waits forever exactly when every earlier step succeeded, the image started, no scanned line holds the marker and the start-up command, if it returned, exited with status 0 |
| Provider.DestroyRun | pkg/provider/provider.go:236-261 | client, directory, SSH for a remote target, then the Docker removal. Client and directory errors end the run at once. Otherwise the run is the plan cut at the first step whose own call fails. A session is open exactly when a remote target's session was accepted. The run succeeds exactly when the whole plan ran and Docker reported no error |
| Provider.DestroyInDir | pkg/provider/provider.go:247-260 | past the directory: the run is the plan cut at the first failing call, and a session is open exactly when a remote target's session was accepted |
| Provider.DestroyRemote | pkg/provider/provider.go:247-258 | remote target: the SSH step answers with the parse error or the SSH library's answer, and the removal follows only when the session opened |
| Provider.DestroyEndsAtFailingCall | pkg/provider/provider.go:247-258 | a destroy run ends at the SSH step with the parse error or the SSH library's error when either fails; once the SSH step succeeds (always, for `local`) the whole plan runs and the removal's answer is returned |
| Provider.DestroyProject | pkg/provider/provider.go:236-261 | the destroy pipeline on the project directory. It always returns, and a client error ends it at once. The directory step cannot fail once the client is open. Otherwise the run is the plan cut at the first failing call, with that call's error. A session is open exactly when a remote target's session was accepted |
| Provider.DestroyWorkspace | pkg/provider/provider.go:113-138 | the destroy pipeline on the workspace directory. It always returns, and a client error ends it at once. The directory step cannot fail once the client is open. Otherwise the run is the plan cut at the first failing call, with that call's error. A session is open exactly when a remote target's session was accepted |

## Left out

- Docker SDK, SSH library and `client.GetClient` internals: these are runtime parameters. Socket-name uniqueness and private-key precedence are not claimed.
- Goroutine scheduling: the two watchers are an interleaved event trace. The losing watcher blocking on the unbuffered channel, and the leaked goroutine, are not modelled.
- Logging and the log-file factory (`provider.go:160-166`). The container-log follower started after a successful project start (`provider.go:209-214`) is also out.
- `StartWorkspace` and `StopWorkspace`: they do nothing and return no error.
- `StopProject`, `GetWorkspaceInfo` and `GetProjectInfo`: each is `getClient` followed by one Docker call whose result is returned as it is.
- `CheckRequirements`: two Docker SDK probes, with no logic of the provider's own.
- `GetTargetManifest` in the provider: it returns the manifest, which is `Targets.Manifest`.
- The `main.go` plugin server, and the constant version string, which is a parameter of `GetInfo`.
- Nil-pointer dereferences: every field the code dereferences without a check is a precondition instead of a panic. This covers the base path, download URL and API port, the server port, the remote data directory, and the remote hostname, port and user. `setLocalEnvOverride` also writes into the project's `EnvVars` map, which Go requires to be non-nil; the model's map is always present.
- Targets.ParseTargetOptions: JSON keys are matched exactly. `encoding/json` also accepts a case-insensitive match.
- Targets.ParseTargetOptions: when several fields are ill-typed, the error reported is the first in field declaration order. Go reports the first in document order.
- Targets.ParseTargetOptions: the type-error value of a number is just "number". Go writes "number 1.5".
- Targets.ParseTargetOptions: JSON text is not parsed. The options arrive as the decoded value, or as the syntax error the decoding gave.
- Strings.Join: models `path.Join` and `filepath.Join` as joining the non-empty elements with one separator, without the final `Clean`.
- Provider.Initialize: the scratch directory is the temporary directory and `target-socks` joined with '/' without cleaning, so a temporary directory that ends in a separator keeps a doubled separator where `path.Join` would clean it.
- Provider.GetProjectDir: the directory is joined without `Clean`, as for `Strings.Join`; `.` and `..` elements and doubled separators are kept.
- Provider.GetWorkspaceDir: joined without `Clean`, as for `Provider.GetProjectDir`.
- DockerStart.Tee: how far the scanner reads ahead is the parameter `read`, not computed from `bufio`'s buffer sizes. It is bounded by `ReadLimit`: the scanner takes nothing beyond one buffer of the first line too long to scan. An empty write is treated as going through, where `io.Pipe` would still wait for a reader. That `ExecSync` returns only once its output has been written is assumed of code outside the model (`FollowsOutput`).
- DockerStart.ScanTokens: bytes are modelled as characters. A scanner error other than a too-long line cannot arise from a pipe that is never closed.
- Provider.DownloadUrlFor: a configured URL with an opaque part, such as `localhost:3986/daytona`, is read by `url.Parse` as scheme `localhost`; once rewritten, `URL.String` writes it without its new host. So the read-back in `Provider.DownloadUrlRewriteRule` is proved only under the hypothesis that the URL library reads the rewritten URL back as written.
- Provider.RewriteForLocal: a URL is a record of scheme, host and the rest; `url.Parse` and `URL.String` are runtime parameters.

## Findings

| source | as written | input that shows it | evidently intended | confidence | as-written member | corrected member |
|---|---|---|---|---|---|---|
| pkg/docker/start.go:32-33 | `io.MultiWriter(w, logWriter)` writes each chunk to the pipe first. The pipe write waits for the scanner, which stops reading once it has found the marker, so that chunk never reaches the log | one write of "Daytona Agent started\n" followed by more output without a newline, such as 5000 bytes, of which the scanner's first read takes 4096: the agent is reported ready and the log stays empty | the output that made the provider report the agent as started is in the log; writing the log first (`io.MultiWriter(logWriter, w)`) gives that | medium; not executed | DockerStart.MarkerCanMissTheLog | DockerStart.LogFirstReadyMeansMarkerWasLogged |

=== FILE: docker_start.dfy ===
/** The project start of `pkg/docker/start.go`: the image is started first,
    then the agent start-up command runs inside the container while two
    watchers race to decide whether the agent came up.

    Go's goroutines and channel are not modelled as a scheduler. What the two
    goroutines do is recorded as one interleaved trace of `Event`s, and the
    operation's outcome is the first signal either watcher produces along that
    trace. A trace in which neither watcher ever signals is an operation that
    never returns (`Blocks`). */
module DockerStart {
  import opened Wrappers
  import opened Errors
  import Strings

  /** The text whose appearance on an output line means the agent is up. */
  const AgentStartedMarker: string := "Daytona Agent started"

  /** `bufio.MaxScanTokenSize`: a line together with its newline must fit in
      a buffer of this many bytes, or the scanner gives up. */
  const MaxTokenSize: nat := 64 * 1024

  /** How an operation that may wait forever ends. */
  datatype Completion = Returned(err: Option<Error>) | Blocks

  /*** The output stream ***/

  /** What the exec's output left behind in the two sinks of
      `io.MultiWriter(pipe, logWriter)`: the bytes the scanner took from the
      pipe, and the bytes the log writer received. */
  datatype Sinks = Sinks(pipe: string, log: string)

  /** The output as one text. */
  function Concat(chunks: seq<string>): string
    decreases |chunks|
  {
    if |chunks| == 0 then "" else chunks[0] + Concat(chunks[1..])
  }

  /** The exec's output written chunk by chunk through the multi-writer, when
      the scanner takes `read` bytes from the pipe in all. Each chunk goes to
      the pipe first, and a pipe write returns only once the reader has taken
      all of it. Nothing closes the pipe, so the first chunk the scanner does
      not read to its end holds its write up for good: that chunk and every
      later one never reach the log. The log therefore holds whole chunks
      only, never runs ahead of the scanner, and holds all of the output only
      when the scanner read all of it. */
  function Tee(chunks: seq<string>, read: nat): (s: Sinks)
    ensures s.pipe <= Concat(chunks)
    ensures |s.pipe| == if read < |Concat(chunks)| then read else |Concat(chunks)|
    ensures s.log <= s.pipe
    ensures exists m | 0 <= m <= |chunks| :: WholeChunksWithin(chunks, m, read) && s.log == Concat(chunks[..m])
    ensures read >= |Concat(chunks)| ==> s.log == Concat(chunks)
    decreases |chunks|
  {
    if |chunks| == 0 then
      assert WholeChunksWithin(chunks, 0, read);
      Sinks("", "")
    else if |chunks[0]| > read then
      assert WholeChunksWithin(chunks, 0, read) by { ConcatFirst(chunks, 1); }
      Sinks(chunks[0][..read], "")
    else
      var rest := Tee(chunks[1..], read - |chunks[0]|);
      var m :| 0 <= m <= |chunks[1..]| && WholeChunksWithin(chunks[1..], m, read - |chunks[0]|)
        && rest.log == Concat(chunks[1..][..m]);
      WholeChunksBehind(chunks, m, read);
      Strings.PrefixBehind(chunks[0], rest.log, rest.pipe);
      Strings.PrefixBehind(chunks[0], rest.pipe, Concat(chunks[1..]));
      Sinks(chunks[0] + rest.pipe, chunks[0] + rest.log)
  }

  /** The first `m` chunks are exactly the ones whose pipe writes went
      through: they fit within what the scanner read, and the next one, if
      any, does not. */
  predicate WholeChunksWithin(chunks: seq<string>, m: nat, read: nat)
    requires m <= |chunks|
  {
    && |Concat(chunks[..m])| <= read
    && (m < |chunks| ==> |Concat(chunks[..m + 1])| > read)
  }

  /** A leading run of chunks starts with the first chunk. */
  lemma ConcatFirst(chunks: seq<string>, m: nat)
    requires 0 < m <= |chunks|
    ensures Concat(chunks[..m]) == chunks[0] + Concat(chunks[1..][..m - 1])
  {
    assert chunks[..m][1..] == chunks[1..][..m - 1];
  }

  /** Whole chunks after the first, counted behind it. */
  lemma WholeChunksBehind(chunks: seq<string>, m: nat, read: nat)
    requires 0 < |chunks| && |chunks[0]| <= read && m <= |chunks| - 1
    requires WholeChunksWithin(chunks[1..], m, read - |chunks[0]|)
    ensures WholeChunksWithin(chunks, m + 1, read)
    ensures Concat(chunks[..m + 1]) == chunks[0] + Concat(chunks[1..][..m])
  {
    ConcatFirst(chunks, m + 1);
    if m + 1 < |chunks| {
      ConcatFirst(chunks, m + 2);
    }
  }

  /** The same output through `io.MultiWriter(logWriter, pipe)`: each chunk
      reaches the log before its pipe write can be held up, so the log holds
      everything the scanner read, and at most the one chunk it did not
      finish on top of that. */
  function TeeLogFirst(chunks: seq<string>, read: nat): (s: Sinks)
    ensures s.pipe == Tee(chunks, read).pipe
    ensures s.pipe <= s.log <= Concat(chunks)
    decreases |chunks|
  {
    if |chunks| == 0 then Sinks("", "")
    else if |chunks[0]| > read then Sinks(chunks[0][..read], chunks[0])
    else
      var rest := TeeLogFirst(chunks[1..], read - |chunks[0]|);
      Strings.PrefixBehind(chunks[0], rest.pipe, rest.log);
      Strings.PrefixBehind(chunks[0], rest.log, Concat(chunks[1..]));
      Sinks(chunks[0] + rest.pipe, chunks[0] + rest.log)
  }

  /*** The line scanner ***/

  /** `bufio.ScanLines` drops one carriage return before the newline. */
  function DropCR(line: string): string {
    if |line| > 0 && line[|line| - 1] == '\r' then line[..|line| - 1] else line
  }

  /** The lines a `bufio.Scanner` yields from everything written to the pipe.
      The pipe's writer is never closed, so the scanner never sees end of
      input: a final line without its newline is never yielded, and a line
      too long for the scanner's buffer stops the scan for good. */
  function ScanTokens(data: string): (lines: seq<string>)
    ensures forall i | 0 <= i < |lines| :: '\n' !in lines[i] && |lines[i]| < MaxTokenSize
    decreases |data|
  {
    match Strings.IndexOf(data, '\n')
    case None => []
    case Some(i) =>
      if i >= MaxTokenSize then []
      else
        assert forall j | 0 <= j < i :: data[..i][j] == data[j];
        [DropCR(data[..i])] + ScanTokens(data[i + 1..])
  }

  /** The text a writer produces by writing `lines`, each followed by a newline. */
  function JoinLines(lines: seq<string>): string
    decreases |lines|
  {
    if |lines| == 0 then "" else lines[0] + "\n" + JoinLines(lines[1..])
  }

  /** A line the scanner hands back exactly as it was written. */
  predicate ScannableLine(line: string) {
    '\n' !in line && |line| < MaxTokenSize && (|line| == 0 || line[|line| - 1] != '\r')
  }

  /** One complete line at the front of the pipe is the first line scanned. */
  lemma ScanTokensStep(line: string, tail: string)
    requires ScannableLine(line)
    ensures ScanTokens(line + "\n" + tail) == [line] + ScanTokens(tail)
  {
    var data := line + "\n" + tail;
    Strings.IndexOfAfter(line, '\n', tail);
    assert data[..|line|] == line;
    assert data[|line| + 1..] == tail;
  }

  /** Complete lines written to the pipe are scanned back one for one, ahead
      of whatever the rest of the output yields. */
  lemma {:induction false} ScanTokensOfJoinedLines(lines: seq<string>, rest: string)
    requires forall i | 0 <= i < |lines| :: ScannableLine(lines[i])
    ensures ScanTokens(JoinLines(lines) + rest) == lines + ScanTokens(rest)
    decreases |lines|
  {
    if |lines| > 0 {
      var line := lines[0];
      var tail := JoinLines(lines[1..]) + rest;
      assert JoinLines(lines) + rest == line + "\n" + tail;
      ScanTokensStep(line, tail);
      ScanTokensOfJoinedLines(lines[1..], rest);
      ConsAppend(lines, ScanTokens(rest));
    } else {
      assert JoinLines(lines) + rest == rest;
    }
  }

  /** A line ended by CR LF is scanned without its CR, when both still fit
      in the scanner's buffer with the newline. */
  lemma {:induction false} ScanTokensDropsCR(line: string, tail: string)
    requires ScannableLine(line) && |line| + 1 < MaxTokenSize
    ensures ScanTokens(line + "\r\n" + tail) == [line] + ScanTokens(tail)
  {
    var data := line + "\r\n" + tail;
    assert data == (line + "\r") + "\n" + tail;
    Strings.IndexOfAfter(line + "\r", '\n', tail);
    assert data[..|line| + 1] == line + "\r";
    assert DropCR(line + "\r") == line;
    assert data[|line| + 2..] == tail;
  }

  /** Scanning more of the output only adds lines after the ones already
      scanned. */
  lemma {:induction false} ScanTokensOfPrefix(data: string, more: string)
    ensures ScanTokens(data) <= ScanTokens(data + more)
    decreases |data|
  {
    match Strings.IndexOf(data, '\n')
    case None =>
    case Some(i) =>
      Strings.IndexOfExtended(data, '\n', more);
      if i < MaxTokenSize {
        assert (data + more)[..i] == data[..i];
        assert (data + more)[i + 1..] == data[i + 1..] + more;
        ScanTokensOfPrefix(data[i + 1..], more);
      }
  }

  /** How much of `data` the scanner can take from the pipe in all. It never
      holds more than one buffer of unscanned bytes, and a full buffer with
      no newline in it is a line too long to scan, after which it reads
      nothing more: so it takes the lines before the first over-long line
      and one buffer of that line. With no such line it may take
      everything. */
  function ReadLimit(data: string): (n: nat)
    ensures n <= |data|
    decreases |data|
  {
    match Strings.IndexOf(data, '\n')
    case None => if |data| >= MaxTokenSize then MaxTokenSize else |data|
    case Some(i) => if i >= MaxTokenSize then MaxTokenSize else i + 1 + ReadLimit(data[i + 1..])
  }

  /** Complete lines written to the pipe never stop the scanner: it can read
      past all of them. */
  lemma {:induction false} ReadLimitOfJoinedLines(lines: seq<string>, rest: string)
    requires forall i | 0 <= i < |lines| :: ScannableLine(lines[i])
    ensures ReadLimit(JoinLines(lines) + rest) == |JoinLines(lines)| + ReadLimit(rest)
    decreases |lines|
  {
    if |lines| > 0 {
      var line := lines[0];
      var tail := JoinLines(lines[1..]) + rest;
      var data := JoinLines(lines) + rest;
      assert data == line + "\n" + tail;
      Strings.IndexOfAfter(line, '\n', tail);
      assert data[|line| + 1..] == tail;
      ReadLimitOfJoinedLines(lines[1..], rest);
    } else {
      assert JoinLines(lines) + rest == rest;
    }
  }

  /** A complete line followed by a shorter-than-buffer partial one: the
      scanner can read all of it. */
  lemma {:induction false} ReadLimitOfLineAndPartial(line: string, partial: string)
    requires ScannableLine(line) && '\n' !in partial && |partial| < MaxTokenSize
    ensures ReadLimit(line + "\n" + partial) == |line + "\n" + partial|
  {
    assert JoinLines([line]) + partial == line + "\n" + partial;
    ReadLimitOfJoinedLines([line], partial);
  }

  /** A buffer's worth of output with no newline in it is a line too long to
      scan: nothing in it is scanned, and the scanner reads no further. */
  lemma OverlongLineStopsTheScan(long: string, rest: string)
    requires |long| >= MaxTokenSize && '\n' !in long
    ensures ScanTokens(long + rest) == []
    ensures ReadLimit(long + rest) == MaxTokenSize
  {
  }

  /** Putting the head of a non-empty sequence back in front of its tail. */
  lemma ConsAppend<T>(xs: seq<T>, ys: seq<T>)
    requires |xs| > 0
    ensures [xs[0]] + (xs[1..] + ys) == xs + ys
  {
    assert xs == [xs[0]] + xs[1..];
  }

  /** A last line still waiting for its newline is never scanned. */
  lemma {:induction false} UnterminatedLineIsNotScanned(lines: seq<string>, partial: string)
    requires forall i | 0 <= i < |lines| :: ScannableLine(lines[i])
    requires '\n' !in partial
    ensures ScanTokens(JoinLines(lines) + partial) == lines
  {
    ScanTokensOfJoinedLines(lines, partial);
    assert lines + [] == lines;
  }

  /** The newline that ends the first scanned line. */
  lemma FirstToken(data: string) returns (i: nat)
    requires |ScanTokens(data)| > 0
    ensures i < |data|
    ensures ScanTokens(data) == [DropCR(data[..i])] + ScanTokens(data[i + 1..])
  {
    i := Strings.IndexOf(data, '\n').value;
  }

  /** Whatever a scanned line contains, the output it came from contains too. */
  lemma {:induction false} ScannedTextIsInOutput(data: string, k: nat, sub: string)
    requires k < |ScanTokens(data)|
    requires Strings.Contains(ScanTokens(data)[k], sub)
    ensures Strings.Contains(data, sub)
    decreases |data|
  {
    var i := FirstToken(data);
    if k == 0 {
      var token := DropCR(data[..i]);
      assert token == data[..|token|];
      Strings.ContainsInPrefix(data, |token|, sub);
    } else {
      var rest := data[i + 1..];
      assert ScanTokens(data)[k] == ScanTokens(rest)[k - 1];
      ScannedTextIsInOutput(rest, k - 1, sub);
      Strings.ContainsInSuffix(data, i + 1, sub);
    }
  }

  /*** The two watchers ***/

  /** What `ExecSync` returned. */
  datatype ExecResult = ExecFailed(err: Error) | Exited(exitCode: int, stdErr: string)

  /** A value sent on the result channel: `nil` (the agent is up) or an error. */
  datatype Signal = Ready | Failed(err: Error)

  /** One step of the interleaved trace: the scanner read a line, or the
      exec call returned. */
  datatype Event = Scanned(line: string) | ExecReturned(result: ExecResult)

  /** The completion watcher: an exec error is sent as it is, a non-zero
      exit is sent as an error whose text is the captured standard error,
      and a zero exit sends nothing. */
  function CompletionSignal(result: ExecResult): (s: Option<Signal>)
    ensures s.None? <==> result.Exited? && result.exitCode == 0
    ensures s.Some? ==> s.value.Failed?
    ensures result.ExecFailed? ==> s == Some(Failed(result.err))
    ensures result.Exited? && result.exitCode != 0 ==> s == Some(Failed(Message(result.stdErr)))
  {
    match result
    case ExecFailed(e) => Some(Failed(e))
    case Exited(code, stdErr) => if code != 0 then Some(Failed(Message(stdErr))) else None
  }

  /** The line-scan watcher's rule for one line: any line containing the
      marker, anywhere in it, means ready. */
  function LineSignal(line: string): Option<Signal> {
    if Strings.Contains(line, AgentStartedMarker) then Some(Ready) else None
  }

  function EventSignal(e: Event): Option<Signal> {
    match e
    case Scanned(line) => LineSignal(line)
    case ExecReturned(result) => CompletionSignal(result)
  }

  /** The line-scan watcher on its own: the index of the first line holding
      the marker, after which it reads nothing more. */
  function MarkerLine(lines: seq<string>): (r: Option<nat>)
    ensures r.Some? ==> r.value < |lines| && Strings.Contains(lines[r.value], AgentStartedMarker)
    ensures r.Some? ==> forall j | 0 <= j < r.value :: !Strings.Contains(lines[j], AgentStartedMarker)
    ensures r.None? ==> forall j | 0 <= j < |lines| :: !Strings.Contains(lines[j], AgentStartedMarker)
    decreases |lines|
  {
    if |lines| == 0 then None
    else if Strings.Contains(lines[0], AgentStartedMarker) then Some(0)
    else match MarkerLine(lines[1..])
      case None => None
      case Some(i) => Some(i + 1)
  }

  /** Where along the trace the first signal is produced, by either watcher. */
  function FirstSignalAt(events: seq<Event>): (r: Option<nat>)
    ensures r.Some? ==> r.value < |events| && EventSignal(events[r.value]).Some?
    ensures r.Some? ==> forall j | 0 <= j < r.value :: EventSignal(events[j]).None?
    ensures r.None? ==> forall j | 0 <= j < |events| :: EventSignal(events[j]).None?
    decreases |events|
  {
    if |events| == 0 then None
    else if EventSignal(events[0]).Some? then Some(0)
    else match FirstSignalAt(events[1..])
      case None => None
      case Some(i) => Some(i + 1)
  }

  function SignalOutcome(s: Signal): Completion {
    match s
    case Ready => Returned(None)
    case Failed(e) => Returned(Some(e))
  }

  /** `startDaytonaAgent`: the first value on the channel is the result; with
      no signal at all the receive waits forever. */
  function StartDaytonaAgent(events: seq<Event>): (c: Completion)
    ensures c.Blocks? <==> forall j | 0 <= j < |events| :: EventSignal(events[j]).None?
    ensures c.Returned? ==> exists i | 0 <= i < |events| ::
      && EventSignal(events[i]).Some?
      && c == SignalOutcome(EventSignal(events[i]).value)
      && forall j | 0 <= j < i :: EventSignal(events[j]).None?
  {
    match FirstSignalAt(events)
    case None => Blocks
    case Some(i) => SignalOutcome(EventSignal(events[i]).value)
  }

  /*** What the race guarantees ***/

  /** The lines the scanner read, in order. */
  function ScannedLines(events: seq<Event>): (lines: seq<string>)
    decreases |events|
  {
    if |events| == 0 then []
    else
      var rest := ScannedLines(events[1..]);
      if events[0].Scanned? then [events[0].line] + rest else rest
  }

  /** Neither watcher signals exactly when the scanner never met the marker
      and the exec call, if it returned, exited with status 0. */
  lemma {:induction false} BlocksIffBothWatchersSilent(events: seq<Event>)
    ensures StartDaytonaAgent(events).Blocks? <==>
      && MarkerLine(ScannedLines(events)).None?
      && forall j | 0 <= j < |events| && events[j].ExecReturned? :: CompletionSignal(events[j].result).None?
    decreases |events|
  {
    if |events| > 0 {
      BlocksIffBothWatchersSilent(events[1..]);
      var rest := events[1..];
      assert forall j | 0 <= j < |rest| :: rest[j] == events[j + 1];
      if events[0].Scanned? {
        var lines := ScannedLines(events);
        assert lines == [events[0].line] + ScannedLines(rest);
        assert lines[1..] == ScannedLines(rest);
      }
      if StartDaytonaAgent(rest).Blocks? && EventSignal(events[0]).None? {
        assert forall j | 0 <= j < |events| :: EventSignal(events[j]).None? by {
          forall j | 0 <= j < |events| ensures EventSignal(events[j]).None? {
            if j > 0 {
              assert events[j] == rest[j - 1];
            }
          }
        }
      }
    }
  }

  /** Once a signal has been produced, nothing later in the trace changes the
      outcome: the losing watcher's result is never read. */
  lemma LaterEventsAreDiscarded(events: seq<Event>, later: seq<Event>)
    requires StartDaytonaAgent(events).Returned?
    ensures StartDaytonaAgent(events + later) == StartDaytonaAgent(events)
  {
    var i := FirstSignalAt(events).value;
    var all := events + later;
    assert forall j | 0 <= j <= i :: all[j] == events[j];
    var k := FirstSignalAt(all);
    assert k.Some?;
    assert k.value == i;
  }

  /** A start-up command that prints the marker and then never exits still
      reports success, once the marker line has been scanned. */
  lemma MarkerWithoutExitIsReady(events: seq<Event>, i: nat)
    requires i < |events| && events[i].Scanned? && Strings.Contains(events[i].line, AgentStartedMarker)
    requires forall j | 0 <= j < |events| :: events[j].Scanned?
    ensures StartDaytonaAgent(events) == Returned(None)
  {
    assert EventSignal(events[i]) == Some(Ready);
  }

  /** A command that exits non-zero before any marker line is scanned fails
      with its captured standard error, verbatim. */
  lemma EarlyCrashFails(events: seq<Event>, i: nat)
    requires i < |events| && events[i].ExecReturned? && events[i].result.Exited?
    requires events[i].result.exitCode != 0
    requires forall j | 0 <= j < i :: EventSignal(events[j]).None?
    ensures StartDaytonaAgent(events) == Returned(Some(Message(events[i].result.stdErr)))
  {
    var k := FirstSignalAt(events);
    assert EventSignal(events[i]).Some?;
    assert k.Some? && k.value == i;
  }

  /** A command that exits with status 0 without the marker ever being
      scanned leaves the start waiting forever. */
  lemma CleanExitWithoutMarkerBlocks(events: seq<Event>)
    requires forall j | 0 <= j < |events| ::
      (events[j].Scanned? && !Strings.Contains(events[j].line, AgentStartedMarker))
      || (events[j].ExecReturned? && events[j].result.Exited? && events[j].result.exitCode == 0)
    ensures StartDaytonaAgent(events) == Blocks
  {
  }

  /** A trace that agrees with the output, when the scanner takes `read`
      bytes of it in all: the scanner takes no more than it can before a
      line too long for it, the lines it reports are the first lines of the
      bytes it took, and the exec call returns only once every write of its
      output went through, which takes the scanner reading all of it. */
  predicate FollowsOutput(events: seq<Event>, chunks: seq<string>, read: nat) {
    && |Tee(chunks, read).pipe| <= ReadLimit(Concat(chunks))
    && ScannedLines(events) <= ScanTokens(Tee(chunks, read).pipe)
    && forall j | 0 <= j < |events| && events[j].ExecReturned? :: read >= |Concat(chunks)|
  }

  /** When the agent is reported ready, the marker is in what the scanner
      read from the pipe. */
  lemma {:induction false} ReadyMeansMarkerWasRead(events: seq<Event>, chunks: seq<string>, read: nat)
    requires FollowsOutput(events, chunks, read)
    requires StartDaytonaAgent(events) == Returned(None)
    ensures Strings.Contains(Tee(chunks, read).pipe, AgentStartedMarker)
  {
    var lines := ScannedLines(events);
    // The completion watcher only ever signals failure, so the success came
    // from a scanned line.
    var i :| 0 <= i < |events| && EventSignal(events[i]).Some?
      && Returned(None) == SignalOutcome(EventSignal(events[i]).value)
      && (forall j | 0 <= j < i :: EventSignal(events[j]).None?);
    assert events[i].Scanned?;
    ScannedLineIndex(events, i);
    assert MarkerLine(lines).Some?;
    var k := MarkerLine(lines).value;
    var data := Tee(chunks, read).pipe;
    assert lines[k] == ScanTokens(data)[k];
    ScannedTextIsInOutput(data, k, AgentStartedMarker);
  }

  /** Once the exec call has returned, the log holds all of its output. */
  lemma ExecReturnedMeansAllLogged(events: seq<Event>, chunks: seq<string>, read: nat, j: nat)
    requires FollowsOutput(events, chunks, read)
    requires j < |events| && events[j].ExecReturned?
    ensures Tee(chunks, read).log == Concat(chunks)
  {
  }

  /** A line too long for the scanner, before any line holding the marker
      and with more output after it, leaves the start waiting forever: the
      scanner gives up without a signal and reads nothing more, so the next
      pipe write never returns, and neither does the exec call. */
  lemma {:induction false} LongLineBeforeMarkerBlocks(events: seq<Event>, chunks: seq<string>, read: nat,
                                   lines: seq<string>, long: string, rest: string)
    requires FollowsOutput(events, chunks, read)
    requires Concat(chunks) == JoinLines(lines) + long + rest
    requires forall i | 0 <= i < |lines| :: ScannableLine(lines[i]) && !Strings.Contains(lines[i], AgentStartedMarker)
    requires |long| >= MaxTokenSize && '\n' !in long && |rest| > 0
    ensures forall j | 0 <= j < |events| :: events[j].Scanned?
    ensures StartDaytonaAgent(events) == Blocks
  {
    LinesBeforeLongLine(lines, long, rest);
    LongLineHoldsTheExec(events, chunks, read);
    ScanTokensOfPipe(chunks, read);
    NoMarkerInPrefix(ScannedLines(events), lines);
    BlocksIffBothWatchersSilent(events);
  }

  /** When the scanner must stop short of the end of the output, the exec
      call's last writes never go through and it never returns. */
  lemma {:induction false} LongLineHoldsTheExec(events: seq<Event>, chunks: seq<string>, read: nat)
    requires FollowsOutput(events, chunks, read)
    requires ReadLimit(Concat(chunks)) < |Concat(chunks)|
    ensures forall j | 0 <= j < |events| :: events[j].Scanned?
  {
  }

  /** The lines scanned from the pipe lead the lines of the whole output. */
  lemma {:induction false} ScanTokensOfPipe(chunks: seq<string>, read: nat)
    ensures ScanTokens(Tee(chunks, read).pipe) <= ScanTokens(Concat(chunks))
  {
    var all := Concat(chunks);
    var pipe := Tee(chunks, read).pipe;
    assert all == pipe + all[|pipe|..];
    ScanTokensOfPrefix(pipe, all[|pipe|..]);
  }

  /** No line holds the marker when the lines come first in a marker-free list. */
  lemma {:induction false} NoMarkerInPrefix(scanned: seq<string>, lines: seq<string>)
    requires scanned <= lines
    requires forall i | 0 <= i < |lines| :: !Strings.Contains(lines[i], AgentStartedMarker)
    ensures MarkerLine(scanned).None?
  {
    assert forall k | 0 <= k < |scanned| :: scanned[k] == lines[k];
  }

  /** Output with a line too long for the scanner, after complete lines:
      only those lines are scanned, and the scanner stops reading before
      the end of the output. */
  lemma {:induction false} LinesBeforeLongLine(lines: seq<string>, long: string, rest: string)
    requires forall i | 0 <= i < |lines| :: ScannableLine(lines[i])
    requires |long| >= MaxTokenSize && '\n' !in long && |rest| > 0
    ensures ScanTokens(JoinLines(lines) + long + rest) == lines
    ensures ReadLimit(JoinLines(lines) + long + rest) < |JoinLines(lines) + long + rest|
  {
    assert JoinLines(lines) + long + rest == JoinLines(lines) + (long + rest);
    OverlongLineStopsTheScan(long, rest);
    ReadLimitOfJoinedLines(lines, long + rest);
    ScanTokensOfJoinedLines(lines, long + rest);
    assert lines + [] == lines;
  }

  /** The marker line can be read, and the agent reported ready, without the
      marker ever reaching the log: one write holds the marker line and more
      output after it, and the scanner reads the marker line but not the
      whole write. With `bufio`'s first read of 4096 bytes, a write of the
      marker line followed by 5000 more bytes is such a case. */
  lemma {:induction false} MarkerCanMissTheLog(chunk: string, more: string, read: nat)
    requires chunk == AgentStartedMarker + "\n" + more
    requires '\n' !in more && |more| < MaxTokenSize
    requires |AgentStartedMarker| + 1 <= read < |chunk|
    ensures StartDaytonaAgent([Scanned(AgentStartedMarker)]) == Returned(None)
    ensures Tee([chunk], read).log == ""
    ensures !Strings.Contains(Tee([chunk], read).log, AgentStartedMarker)
    ensures FollowsOutput([Scanned(AgentStartedMarker)], [chunk], read)
  {
    var rest := more[..read - |AgentStartedMarker| - 1];
    TeeOfOneWrite(chunk, read);
    assert chunk[..read] == AgentStartedMarker + "\n" + rest;
    assert ScannableLine(AgentStartedMarker);
    ScanTokensStep(AgentStartedMarker, rest);
    ReadLimitOfLineAndPartial(AgentStartedMarker, more);
    assert Strings.Contains(AgentStartedMarker, AgentStartedMarker);
  }


  /** A single write the scanner does not read to its end reaches the pipe
      only as far as the scanner read, and never reaches the log. */
  lemma {:induction false} TeeOfOneWrite(chunk: string, read: nat)
    requires read < |chunk|
    ensures Concat([chunk]) == chunk
    ensures Tee([chunk], read) == Sinks(chunk[..read], "")
  {
    assert Concat([chunk]) == chunk + Concat([]);
  }


  /** With the log written first, a ready report means the marker reached
      the log. */
  lemma {:induction false} LogFirstReadyMeansMarkerWasLogged(events: seq<Event>, chunks: seq<string>, read: nat)
    requires FollowsOutput(events, chunks, read)
    requires StartDaytonaAgent(events) == Returned(None)
    ensures Strings.Contains(TeeLogFirst(chunks, read).log, AgentStartedMarker)
  {
    ReadyMeansMarkerWasRead(events, chunks, read);
    var s := TeeLogFirst(chunks, read);
    assert s.log[..|s.pipe|] == s.pipe;
    Strings.ContainsInPrefix(s.log, |s.pipe|, AgentStartedMarker);
  }

  /** A scanned event's line appears in the scanned lines. */
  lemma {:induction false} ScannedLineIndex(events: seq<Event>, i: nat)
    requires i < |events| && events[i].Scanned?
    ensures events[i].line in ScannedLines(events)
    decreases |events|
  {
    if i > 0 {
      ScannedLineIndex(events[1..], i - 1);
    }
  }

  /*** The project start ***/

  /** What `StartProject` did: whether it got as far as starting the agent,
      and how it ended. */
  datatype Started = Started(agentAttempted: bool, outcome: Completion)

  /** `StartProject`: start the image first; if that fails its error is the
      result and the agent is never started, otherwise the result is the
      agent start's. */
  function StartProject(imageStart: Option<Error>, agent: seq<Event>): (r: Started)
    ensures r.agentAttempted <==> imageStart.None?
    ensures imageStart.Some? ==> r.outcome == Returned(imageStart)
    ensures imageStart.None? ==> r.outcome == StartDaytonaAgent(agent)
  {
    if imageStart.Some? then Started(false, Returned(imageStart))
    else Started(true, StartDaytonaAgent(agent))
  }
}

=== FILE: errors.dfy ===
/** The Go `error` values the core produces or passes along. Errors from code
    outside the model (the Docker SDK, the SSH library, `url.Parse`) are
    represented by whatever `Error` the corresponding runtime parameter
    returns; the model only ever forwards them. */
module Errors {

  datatype Error =
    /** An error whose text is all there is to it, as built by `errors.New`. */
    | Message(text: string)
    /** `*json.UnmarshalTypeError`: the JSON kind found (`value`), the key of
        the struct field it was meant for (empty for the top-level value) and
        the Go type that field expects. */
    | UnmarshalType(value: string, field: string, goType: string)
}

=== FILE: provider.dfy ===
/** The provider of `pkg/provider/provider.go`: the state captured by
    `Initialize`; the directories, SSH session configuration, environment
    override and download URL, which differ between the local target and a
    remote one; the preset targets; and the early-return pipelines of the
    lifecycle operations.

    Everything outside this file's reach (the Docker client, the SSH
    library, builder detection, `net/url`, the file system, the host's
    temporary directory) is a parameter: a `Host` record for the machine
    and a `Runtime` record of functions for the foreign calls. A lifecycle
    operation is modelled as the `Run` it performs: the steps it attempted,
    in order, each with how it ended. */
module Provider {
  import opened Wrappers
  import opened Errors
  import Strings
  import opened Targets
  import DockerStart

  /*** Provider state ***/

  newtype uint32 = x: int | 0 <= x < 0x1_0000_0000

  /** The provider's fields; every pointer is nil until `Initialize` succeeds. */
  datatype WindowsProvider = WindowsProvider(
    basePath: Option<string>,
    daytonaDownloadUrl: Option<string>,
    daytonaVersion: Option<string>,
    serverUrl: Option<string>,
    apiUrl: Option<string>,
    logsDir: Option<string>,
    apiPort: Option<uint32>,
    serverPort: Option<uint32>,
    remoteSockDir: string)

  const Uninitialized: WindowsProvider := WindowsProvider(None, None, None, None, None, None, None, None, "")

  datatype InitializeRequest = InitializeRequest(
    basePath: string,
    daytonaDownloadUrl: string,
    daytonaVersion: string,
    serverUrl: string,
    apiUrl: string,
    logsDir: string,
    apiPort: uint32,
    serverPort: uint32)

  /** The machine the provider runs on: its operating system and what
      `os.TempDir` reports there. */
  datatype Host = Host(isWindows: bool, tempDir: string)

  /** `filepath.Separator`. */
  function PathSeparator(host: Host): char {
    if host.isWindows then '\\' else '/'
  }

  /** The two file-system calls `Initialize` makes; each answers with the
      error it would return, if any. */
  datatype FileSystem = FileSystem(removeAll: string -> Option<Error>, mkdirAll: string -> Option<Error>)

  const SockDirName: string := "target-socks"
  const UnixTempDir: string := "/tmp"
  const NoTempDirError: Error := Message("could not determine temp dir")

  /** The temporary directory `Initialize` works under, if it can find one. */
  function TempDir(host: Host): Option<string> {
    if !host.isWindows then Some(UnixTempDir)
    else if host.tempDir == "" then None
    else Some(host.tempDir)
  }

  /** `Initialize`: find the temporary directory, record the socket scratch
      directory under it, clear and recreate that directory, and only then
      copy the request into the provider. The result is the provider after
      the call together with the error returned. */
  function Initialize(p: WindowsProvider, req: InitializeRequest, host: Host, fs: FileSystem)
    : (r: (WindowsProvider, Option<Error>))
    ensures TempDir(host).None? ==> r == (p, Some(NoTempDirError))
    ensures TempDir(host).Some? ==>
      var dir := TempDir(host).value + "/" + SockDirName;
      && r.0.remoteSockDir == dir
      && (r.1.Some? ==> r.0 == p.(remoteSockDir := dir))
      && (r.1.None? <==> fs.removeAll(dir).None? && fs.mkdirAll(dir).None?)
      && (fs.removeAll(dir).Some? ==> r.1 == fs.removeAll(dir))
      && (fs.removeAll(dir).None? ==> r.1 == fs.mkdirAll(dir))
    ensures r.1.None? ==> Configured(r.0) && ReflectsRequest(r.0, req)
  {
    match TempDir(host)
    case None => (p, Some(NoTempDirError))
    case Some(tmp) =>
      var dir := Strings.Join('/', [tmp, SockDirName]);
      JoinTwo('/', tmp, SockDirName);
      var p1 := p.(remoteSockDir := dir);
      if fs.removeAll(dir).Some? then (p1, fs.removeAll(dir))
      else if fs.mkdirAll(dir).Some? then (p1, fs.mkdirAll(dir))
      else
        (p1.(basePath := Some(req.basePath), daytonaDownloadUrl := Some(req.daytonaDownloadUrl),
             daytonaVersion := Some(req.daytonaVersion), serverUrl := Some(req.serverUrl),
             apiUrl := Some(req.apiUrl), logsDir := Some(req.logsDir),
             apiPort := Some(req.apiPort), serverPort := Some(req.serverPort)),
         None)
  }

  /** Joining two non-empty path elements puts one separator between them. */
  lemma JoinTwo(sep: char, a: string, b: string)
    requires a != "" && b != ""
    ensures Strings.Join(sep, [a, b]) == a + [sep] + b
  {
    assert [a, b][..1] == [a];
    assert [a][..0] == [];
    assert Strings.Join(sep, [a]) == a;
  }

  /** Every pointer field is set. */
  predicate Configured(p: WindowsProvider) {
    && p.basePath.Some? && p.daytonaDownloadUrl.Some? && p.daytonaVersion.Some?
    && p.serverUrl.Some? && p.apiUrl.Some? && p.logsDir.Some?
    && p.apiPort.Some? && p.serverPort.Some?
  }

  /** Every pointer field holds the request's value. */
  predicate ReflectsRequest(p: WindowsProvider, req: InitializeRequest)
    requires Configured(p)
  {
    && p.basePath.value == req.basePath && p.daytonaDownloadUrl.value == req.daytonaDownloadUrl
    && p.daytonaVersion.value == req.daytonaVersion && p.serverUrl.value == req.serverUrl
    && p.apiUrl.value == req.apiUrl && p.logsDir.value == req.logsDir
    && p.apiPort.value == req.apiPort && p.serverPort.value == req.serverPort
  }

  /** Outside Windows the scratch directory is always "/tmp/target-socks",
      whatever the host reports as its temporary directory, and the call
      fails exactly when clearing or recreating that directory does. */
  lemma UnixSockDir(p: WindowsProvider, req: InitializeRequest, host: Host, fs: FileSystem)
    requires !host.isWindows
    ensures Initialize(p, req, host, fs).0.remoteSockDir == "/tmp/target-socks"
    ensures Initialize(p, req, host, fs).1.None? <==>
      fs.removeAll("/tmp/target-socks").None? && fs.mkdirAll("/tmp/target-socks").None?
  {
  }

  /** A successful `Initialize` leaves the provider fully configured whatever
      state it started from; only the scratch directory depends on the host. */
  lemma InitializeForgetsPreviousState(p: WindowsProvider, q: WindowsProvider, req: InitializeRequest, host: Host, fs: FileSystem)
    requires Initialize(p, req, host, fs).1.None?
    ensures Initialize(q, req, host, fs) == Initialize(p, req, host, fs)
  {
  }

  /*** Requests ***/

  datatype Project = Project(name: string, workspaceId: string, target: string, user: string, envVars: map<string, string>)

  /** A project request: the project and its target's options text. */
  datatype ProjectRequest = ProjectRequest(project: Project, targetOptions: OptionsJson)

  datatype Workspace = Workspace(id: string, target: string)

  datatype WorkspaceRequest = WorkspaceRequest(workspace: Workspace, targetOptions: OptionsJson)

  /** The provider's own local-or-remote choices (directories, SSH session,
      URL rewrite) look at the target's name and nothing else. Which Docker
      endpoint the client talks to is left to `client.GetClient`, which is
      given the parsed options. */
  predicate IsLocal(targetName: string) {
    targetName == LocalTargetName
  }

  /*** Directories ***/

  /** The name of a project's directory inside its workspace's. */
  function ProjectDirName(project: Project): (name: string)
    ensures |name| > |project.workspaceId| && name[|project.workspaceId|] == '-'
  {
    project.workspaceId + "-" + project.name
  }

  /** Where a remote target keeps its workspaces, when the options parse. */
  predicate RemoteDirDefined(options: OptionsJson) {
    ParseTargetOptions(options).Success? ==> ParseTargetOptions(options).value.workspaceDataDir.Some?
  }

  /** What the directory functions dereference: the base path in local mode,
      the parsed data directory in remote mode. */
  predicate DirDefined(p: WindowsProvider, targetName: string, options: OptionsJson) {
    if IsLocal(targetName) then p.basePath.Some? else RemoteDirDefined(options)
  }

  /** `getWorkspaceDir`: under the base path with the host's separator for
      the local target, under the options' data directory with '/' for a
      remote one; a remote target whose options do not parse has no
      directory, and the parse error is returned unchanged. */
  function GetWorkspaceDir(p: WindowsProvider, host: Host, req: WorkspaceRequest): (r: Result<string, Error>)
    requires DirDefined(p, req.workspace.target, req.targetOptions)
    ensures IsLocal(req.workspace.target) ==>
      r == Success(Strings.Join(PathSeparator(host), [p.basePath.value, req.workspace.id]))
    ensures !IsLocal(req.workspace.target) ==>
      var parsed := ParseTargetOptions(req.targetOptions);
      && (r.Failure? <==> parsed.Failure?)
      && (r.Failure? ==> r.error == parsed.error)
      && (r.Success? ==> r.value == Strings.Join('/', [parsed.value.workspaceDataDir.value, req.workspace.id]))
  {
    if IsLocal(req.workspace.target) then
      Success(Strings.Join(PathSeparator(host), [p.basePath.value, req.workspace.id]))
    else
      var options :- ParseTargetOptions(req.targetOptions);
      Success(Strings.Join('/', [options.workspaceDataDir.value, req.workspace.id]))
  }

  /** `getProjectDir`: the workspace directory's recipe with one more
      element, the project's directory name. */
  function GetProjectDir(p: WindowsProvider, host: Host, req: ProjectRequest): (r: Result<string, Error>)
    requires DirDefined(p, req.project.target, req.targetOptions)
    ensures IsLocal(req.project.target) ==> r.Success?
    ensures !IsLocal(req.project.target) ==>
      var parsed := ParseTargetOptions(req.targetOptions);
      && (r.Failure? <==> parsed.Failure?)
      && (r.Failure? ==> r.error == parsed.error)
    ensures r.Success? ==>
      var sep := if IsLocal(req.project.target) then PathSeparator(host) else '/';
      var root := if IsLocal(req.project.target) then p.basePath.value
                  else ParseTargetOptions(req.targetOptions).value.workspaceDataDir.value;
      r.value == Strings.Join(sep, [root, req.project.workspaceId, ProjectDirName(req.project)])
  {
    var id := req.project.workspaceId;
    if IsLocal(req.project.target) then
      Success(Strings.Join(PathSeparator(host), [p.basePath.value, id, ProjectDirName(req.project)]))
    else
      var options :- ParseTargetOptions(req.targetOptions);
      Success(Strings.Join('/', [options.workspaceDataDir.value, id, ProjectDirName(req.project)]))
  }

  /** The workspace a project belongs to, asked of the same target. */
  function WorkspaceOf(req: ProjectRequest): WorkspaceRequest {
    WorkspaceRequest(Workspace(req.project.workspaceId, req.project.target), req.targetOptions)
  }

  /** In both modes the project directory is the directory of its workspace
      extended by exactly one element, "<workspace id>-<project name>". */
  lemma {:induction false} ProjectDirExtendsWorkspaceDir(p: WindowsProvider, host: Host, req: ProjectRequest)
    requires DirDefined(p, req.project.target, req.targetOptions)
    ensures GetProjectDir(p, host, req).Success? <==> GetWorkspaceDir(p, host, WorkspaceOf(req)).Success?
    ensures GetProjectDir(p, host, req).Success? ==>
      var ws := GetWorkspaceDir(p, host, WorkspaceOf(req)).value;
      var sep := if IsLocal(req.project.target) then PathSeparator(host) else '/';
      GetProjectDir(p, host, req).value
        == if ws == "" then ProjectDirName(req.project) else ws + [sep] + ProjectDirName(req.project)
  {
    var r := GetProjectDir(p, host, req);
    if r.Success? {
      var sep := if IsLocal(req.project.target) then PathSeparator(host) else '/';
      var root := if IsLocal(req.project.target) then p.basePath.value
                  else ParseTargetOptions(req.targetOptions).value.workspaceDataDir.value;
      var elems := [root, req.project.workspaceId, ProjectDirName(req.project)];
      assert elems[..2] == [root, req.project.workspaceId];
    }
  }

  /** No element holds the separator. */
  predicate FreeOf(sep: char, elems: seq<string>) {
    forall i | 0 <= i < |elems| :: sep !in elems[i]
  }

  /** Splitting a project directory at its separator gives back the root,
      the workspace id and the directory name, as long as none of them holds
      the separator (empty ones are skipped, as joining skipped them). */
  lemma ProjectDirSplits(p: WindowsProvider, host: Host, req: ProjectRequest)
    requires DirDefined(p, req.project.target, req.targetOptions)
    requires GetProjectDir(p, host, req).Success?
    ensures
      var sep := if IsLocal(req.project.target) then PathSeparator(host) else '/';
      var root := if IsLocal(req.project.target) then p.basePath.value
                  else ParseTargetOptions(req.targetOptions).value.workspaceDataDir.value;
      var elems := [root, req.project.workspaceId, ProjectDirName(req.project)];
      FreeOf(sep, elems) ==>
        Strings.NonEmpty(Strings.Split(sep, GetProjectDir(p, host, req).value)) == Strings.NonEmpty(elems)
  {
    var sep := if IsLocal(req.project.target) then PathSeparator(host) else '/';
    var root := if IsLocal(req.project.target) then p.basePath.value
                else ParseTargetOptions(req.targetOptions).value.workspaceDataDir.value;
    var elems := [root, req.project.workspaceId, ProjectDirName(req.project)];
    assert GetProjectDir(p, host, req).value == Strings.Join(sep, elems);
    if FreeOf(sep, elems) {
      Strings.SplitRecoversJoin(sep, elems);
    }
  }

  /*** SSH ***/

  /** What `ssh.NewClient` is given. */
  datatype SessionConfig = SessionConfig(
    hostname: string,
    port: int,
    username: string,
    password: Option<string>,
    privateKeyPath: Option<string>)

  /** What `getSshClient` dereferences for a remote target whose options parse. */
  predicate SshFieldsDefined(options: OptionsJson) {
    var parsed := ParseTargetOptions(options);
    parsed.Success? ==>
      parsed.value.remoteHostname.Some? && parsed.value.remotePort.Some? && parsed.value.remoteUser.Some?
  }

  /** `getSshClient` up to the call into the SSH library: no session and no
      error for the local target, whatever its options say; otherwise the
      parse error, or the configuration built from the parsed options, with
      the password and key path passed on as they are, nil or not. */
  function SshSessionFor(targetName: string, options: OptionsJson): (r: Result<Option<SessionConfig>, Error>)
    requires !IsLocal(targetName) ==> SshFieldsDefined(options)
    ensures IsLocal(targetName) ==> r == Success(None)
    ensures !IsLocal(targetName) ==>
      var parsed := ParseTargetOptions(options);
      && (r.Failure? <==> parsed.Failure?)
      && (r.Failure? ==> r.error == parsed.error)
      && (r.Success? ==>
            && r.value.Some?
            && Some(r.value.value.hostname) == parsed.value.remoteHostname
            && Some(r.value.value.port) == parsed.value.remotePort
            && Some(r.value.value.username) == parsed.value.remoteUser
            && r.value.value.password == parsed.value.remotePassword
            && r.value.value.privateKeyPath == parsed.value.remotePrivateKey)
  {
    if IsLocal(targetName) then Success(None)
    else
      var o :- ParseTargetOptions(options);
      Success(Some(SessionConfig(o.remoteHostname.value, o.remotePort.value, o.remoteUser.value,
                                 o.remotePassword, o.remotePrivateKey)))
  }

  /*** Addresses the container uses to reach the host ***/

  /** The name a container uses for the machine running Docker. */
  const DockerHost: string := "host.docker.internal"

  const ServerUrlVar: string := "DAYTONA_SERVER_URL"
  const ApiUrlVar: string := "DAYTONA_SERVER_API_URL"

  /** `fmt.Sprintf("host.docker.internal:%d", port)`. */
  function DockerHostPort(port: uint32): string {
    DockerHost + ":" + Strings.Decimal(port as nat)
  }

  const HttpPrefix: string := "http://"

  /** The loopback URL of a port on the host, as a container sees it. */
  function LoopbackUrl(port: uint32): string {
    HttpPrefix + DockerHostPort(port)
  }

  /** A loopback URL is plain http and names the Docker host and the very
      port it was built from. */
  lemma LoopbackUrlNamesPort(port: uint32)
    ensures LoopbackUrl(port)[..|HttpPrefix|] == HttpPrefix
    ensures Strings.SplitHostPort(LoopbackUrl(port)[|HttpPrefix|..]) == Some((DockerHost, port as nat))
  {
    assert LoopbackUrl(port)[|HttpPrefix|..] == DockerHost + ":" + Strings.Decimal(port as nat);
    Strings.HostPortRoundTrip(DockerHost, port as nat);
  }

  /** `setLocalEnvOverride`: the two server URL variables point at the host
      through the Docker loopback name; every other variable is kept. */
  function LocalEnvOverride(p: WindowsProvider, env: map<string, string>): (r: map<string, string>)
    requires p.serverPort.Some? && p.apiPort.Some?
    ensures r.Keys == env.Keys + {ServerUrlVar, ApiUrlVar}
    ensures r[ServerUrlVar] == LoopbackUrl(p.serverPort.value)
    ensures r[ApiUrlVar] == LoopbackUrl(p.apiPort.value)
    ensures forall k | k in env && k != ServerUrlVar && k != ApiUrlVar :: r[k] == env[k]
  {
    env[ServerUrlVar := LoopbackUrl(p.serverPort.value)][ApiUrlVar := LoopbackUrl(p.apiPort.value)]
  }

  /** Applying the override twice is the same as applying it once. */
  lemma LocalEnvOverrideIdempotent(p: WindowsProvider, env: map<string, string>)
    requires p.serverPort.Some? && p.apiPort.Some?
    ensures LocalEnvOverride(p, LocalEnvOverride(p, env)) == LocalEnvOverride(p, env)
  {
  }

  /** A parsed URL, reduced to the parts the rewrite touches; everything
      else (path, query, user info, fragment) travels in `rest`. */
  datatype Url = Url(scheme: string, host: string, rest: string)

  /** The download URL seen from inside a local container: http, to the
      Docker host at the API port, with path and query kept. */
  function RewriteForLocal(u: Url, apiPort: uint32): (r: Url)
    ensures r.scheme == "http"
    ensures Strings.SplitHostPort(r.host) == Some((DockerHost, apiPort as nat))
    ensures r.rest == u.rest
  {
    Strings.HostPortRoundTrip(DockerHost, apiPort as nat);
    Url("http", DockerHostPort(apiPort), u.rest)
  }

  /** Rewriting an already rewritten URL changes nothing. */
  lemma RewriteForLocalIdempotent(u: Url, apiPort: uint32)
    ensures RewriteForLocal(RewriteForLocal(u, apiPort), apiPort) == RewriteForLocal(u, apiPort)
  {
  }

  /** What builder detection reports; only the devcontainer builder matters. */
  datatype BuilderType = Devcontainer | OtherBuilder(name: string)

  /*** Presets ***/

  const ProviderName: string := "windows-provider"
  const ProviderLabel: string := "Windows"

  datatype ProviderInfo = ProviderInfo(name: string, title: string, buildVersion: string)

  datatype ProviderTarget = ProviderTarget(name: string, info: ProviderInfo, options: OptionsJson)

  /** `GetInfo`, with the build's version string as a parameter. */
  function GetInfo(buildVersion: string): (info: ProviderInfo)
    ensures info.name == ProviderName && info.title == ProviderLabel && info.buildVersion == buildVersion
  {
    ProviderInfo(ProviderName, ProviderLabel, buildVersion)
  }

  /** The preset's options text `{"Sock Path": "/var/run/docker.sock"}`, as
      the JSON value it decodes to. */
  const LocalPresetOptions: OptionsJson := Success(JObject(map[SockPathKey := JString("/var/run/docker.sock")]))

  /** `GetPresetTargets`: exactly one target, the local one. */
  function GetPresetTargets(buildVersion: string): (r: Result<seq<ProviderTarget>, Error>)
    ensures r.Success? && |r.value| == 1
    ensures r.value[0].name == LocalTargetName && IsLocal(r.value[0].name)
    ensures r.value[0].info == GetInfo(buildVersion)
  {
    Success([ProviderTarget(LocalTargetName, GetInfo(buildVersion), LocalPresetOptions)])
  }

  /** The local preset's options parse to a record whose only set field is
      the socket path, at the manifest's default. */
  lemma PresetSetsOnlySockPath(buildVersion: string)
    ensures ParseTargetOptions(GetPresetTargets(buildVersion).value[0].options)
         == Success(NoOptions.(sockPath := Some(Manifest()[SockPathKey].defaultValue)))
  {
    var fields := map[SockPathKey := JString("/var/run/docker.sock")];
    ManifestDefaults();
    forall f: Field
      ensures Entry(fields, f) == if f == SockPath then JString("/var/run/docker.sock") else JNull
    {
      if f != SockPath {
        KeysDistinct(f, SockPath);
      }
    }
    var r := ParseTargetOptions(Success(JObject(fields)));
    FieldValuesDetermineOptions(r.value, NoOptions.(sockPath := Some("/var/run/docker.sock")));
  }

  /*** Lifecycle operations ***/

  /** The calls into code outside the model, each answering with what it
      returns. `openDocker` is `client.GetClient` on the parsed options and
      the scratch directory; the Docker start is split into the image start
      and the trace of the agent start-up it leads to. */
  datatype Runtime = Runtime(
    openDocker: (TargetOptions, string) -> Option<Error>,
    openSession: SessionConfig -> Option<Error>,
    detectBuilder: (Project, string) -> Result<BuilderType, Error>,
    parseUrl: string -> Result<Url, Error>,
    formatUrl: Url -> string,
    startImage: (Project, string, bool) -> Option<Error>,
    agentTrace: (Project, string) -> seq<DockerStart.Event>,
    destroyProject: (Project, string, bool) -> Option<Error>,
    destroyWorkspace: (Workspace, string, bool) -> Option<Error>)

  /** `getClient`: parse the options, then open a Docker client on them. */
  function GetClient(p: WindowsProvider, rt: Runtime, options: OptionsJson): (r: Result<TargetOptions, Error>)
    ensures r.Success? <==>
      ParseTargetOptions(options).Success? && rt.openDocker(ParseTargetOptions(options).value, p.remoteSockDir).None?
    ensures r.Success? ==> r.value == ParseTargetOptions(options).value
    ensures r.Failure? && ParseTargetOptions(options).Failure? ==> r.error == ParseTargetOptions(options).error
    ensures r.Failure? && ParseTargetOptions(options).Success? ==>
      rt.openDocker(ParseTargetOptions(options).value, p.remoteSockDir) == Some(r.error)
  {
    var o :- ParseTargetOptions(options);
    if rt.openDocker(o, p.remoteSockDir).Some? then Failure(rt.openDocker(o, p.remoteSockDir).value) else Success(o)
  }

  /** A step of a lifecycle operation. The Docker steps carry what they were
      given: the directory, the download URL, whether an SSH session goes
      with them. */
  datatype Step =
    | OpenDocker
    | ResolveDir
    | DetectBuilder
    | ParseDownloadUrl
    | OpenSsh
    | DockerStartProject(projectDir: string, downloadUrl: string, withSsh: bool)
    | DockerDestroy(dir: string, withSsh: bool)

  datatype Attempt = Attempt(step: Step, result: DockerStart.Completion)

  /** What an operation did: the steps it attempted and whether it opened and
      later closed an SSH session (`defer sshClient.Close()` runs only once
      the operation returns). */
  datatype Run = Run(attempts: seq<Attempt>, sessionOpened: bool, sessionClosed: bool)

  const Ok: DockerStart.Completion := DockerStart.Returned(None)

  function Steps(run: Run): seq<Step> {
    seq(|run.attempts|, i requires 0 <= i < |run.attempts| => run.attempts[i].step)
  }

  /** How the operation ended: as its last attempted step did. */
  function Outcome(run: Run): DockerStart.Completion {
    if |run.attempts| == 0 then Ok else run.attempts[|run.attempts| - 1].result
  }

  /** The early-return discipline: every step before the last succeeded, so
      the operation's outcome is that of the first step that did not. */
  predicate EarlyReturn(run: Run) {
    && |run.attempts| > 0
    && (forall i | 0 <= i < |run.attempts| - 1 :: run.attempts[i].result == Ok)
  }

  /** The session is closed exactly when one was opened and the operation
      returned. */
  predicate SessionReleased(run: Run) {
    run.sessionClosed <==> run.sessionOpened && Outcome(run).Returned?
  }

  function Fail(e: Error): DockerStart.Completion {
    DockerStart.Returned(Some(e))
  }

  function ResultOf<T>(r: Result<T, Error>): DockerStart.Completion {
    if r.Success? then Ok else Fail(r.error)
  }

  function OptionResult(e: Option<Error>): DockerStart.Completion {
    DockerStart.Returned(e)
  }

  /** `Run` for steps that ended without an SSH session. */
  function NoSession(attempts: seq<Attempt>): Run {
    Run(attempts, false, false)
  }

  /** `Run` for steps taken with an open SSH session. */
  function WithSession(attempts: seq<Attempt>): Run
    requires |attempts| > 0
  {
    Run(attempts, true, attempts[|attempts| - 1].result.Returned?)
  }

  /** `run` carried out `plan` step by step, each step ending with the
      answer `results` holds for it, up to and including the first step
      whose answer is not `Ok`: the early-return discipline, measured
      against what every call answers, fixed in advance. */
  predicate StopsAtFirstFailure(run: Run, plan: seq<Step>, results: seq<DockerStart.Completion>)
    requires |results| == |plan|
  {
    && 0 < |run.attempts| <= |plan|
    && (forall i | 0 <= i < |run.attempts| :: run.attempts[i] == Attempt(plan[i], results[i]))
    && (forall i | 0 <= i < |run.attempts| - 1 :: results[i] == Ok)
    && (|run.attempts| < |plan| ==> results[|run.attempts| - 1] != Ok)
  }

  /** A run that stops at its first failure keeps the early-return
      discipline, follows its plan, and succeeds only by running all of it. */
  lemma StopsAtFirstFailureShape(run: Run, plan: seq<Step>, results: seq<DockerStart.Completion>)
    requires |results| == |plan| && StopsAtFirstFailure(run, plan, results)
    ensures EarlyReturn(run) && Steps(run) <= plan
    ensures Outcome(run) == Ok ==> Steps(run) == plan
    ensures Steps(run) == plan ==> Outcome(run) == results[|plan| - 1]
  {
    assert Steps(run) == plan[..|run.attempts|];
  }

  /** The first step whose answer is not `Ok` is the last one run, and its
      answer is the operation's. */
  lemma EndsAtFirstFailure(run: Run, plan: seq<Step>, results: seq<DockerStart.Completion>, j: nat)
    requires |results| == |plan| && StopsAtFirstFailure(run, plan, results)
    requires j < |plan| && results[j] != Ok
    requires forall i | 0 <= i < j :: results[i] == Ok
    ensures Steps(run) == plan[..j + 1] && Outcome(run) == results[j]
  {
    assert |run.attempts| == j + 1;
  }

  /** When every step before the last succeeds, the whole plan runs and the
      last step's answer is the operation's. */
  lemma RunsWholePlan(run: Run, plan: seq<Step>, results: seq<DockerStart.Completion>)
    requires |results| == |plan| && StopsAtFirstFailure(run, plan, results)
    requires forall i | 0 <= i < |plan| - 1 :: results[i] == Ok
    ensures Steps(run) == plan && Outcome(run) == results[|plan| - 1]
  {
    assert |run.attempts| == |plan|;
  }

  /** Steps that all succeeded, put in front of a run that stops at its
      first failure, give a run that still does. */
  lemma ContinueStops(done: seq<Step>, doneResults: seq<DockerStart.Completion>, rest: Run,
                      tail: seq<Step>, tailResults: seq<DockerStart.Completion>)
    requires |doneResults| == |done| && forall i | 0 <= i < |done| :: doneResults[i] == Ok
    requires |tailResults| == |tail| && StopsAtFirstFailure(rest, tail, tailResults)
    ensures StopsAtFirstFailure(Continue(done, rest), done + tail, doneResults + tailResults)
  {
    var run := Continue(done, rest);
    var plan := done + tail;
    var results := doneResults + tailResults;
    forall i | 0 <= i < |run.attempts|
      ensures run.attempts[i] == Attempt(plan[i], results[i])
    {
      if i >= |done| {
        assert run.attempts[i] == rest.attempts[i - |done|];
      }
    }
    if |run.attempts| < |plan| {
      assert results[|run.attempts| - 1] == tailResults[|rest.attempts| - 1];
    }
  }

  /*** The SSH step ***/

  /** What the SSH step answers: the options' parse error, or what opening a
      session on the configuration they give returns. The local target needs
      no session, so its step succeeds at once. */
  function SessionResult(rt: Runtime, targetName: string, options: OptionsJson): DockerStart.Completion
    requires !IsLocal(targetName) ==> SshFieldsDefined(options)
  {
    match SshSessionFor(targetName, options)
    case Failure(e) => Fail(e)
    case Success(None) => Ok
    case Success(Some(config)) => OptionResult(rt.openSession(config))
  }

  /** The SSH step leaves a session open: the options give a configuration
      and the SSH library accepts it. */
  predicate SessionOpens(rt: Runtime, targetName: string, options: OptionsJson)
    requires !IsLocal(targetName) ==> SshFieldsDefined(options)
  {
    var config := SshSessionFor(targetName, options);
    config.Success? && config.value.Some? && rt.openSession(config.value.value).None?
  }

  /** The download URL handed to the Docker start: rewritten to the loopback
      address only for the local target with a builder other than
      devcontainer, and only if it parses. */
  function DownloadUrlFor(p: WindowsProvider, rt: Runtime, project: Project, builder: Result<BuilderType, Error>): (url: string)
    requires p.daytonaDownloadUrl.Some?
    requires RewriteDefined(p, rt, project, builder)
    ensures !IsLocal(project.target) || builder.Failure? || builder == Success(Devcontainer) ==>
      url == p.daytonaDownloadUrl.value
    ensures IsLocal(project.target) && builder.Success? && builder.value != Devcontainer ==>
      match rt.parseUrl(p.daytonaDownloadUrl.value)
      case Failure(_) => url == p.daytonaDownloadUrl.value
      case Success(given) => url == rt.formatUrl(Url("http", DockerHostPort(p.apiPort.value), given.rest))
  {
    var url := p.daytonaDownloadUrl.value;
    if Rewrites(p, rt, project, builder)
    then rt.formatUrl(RewriteForLocal(rt.parseUrl(url).value, p.apiPort.value))
    else url
  }

  /** Whether the download URL is rewritten. */
  predicate Rewrites(p: WindowsProvider, rt: Runtime, project: Project, builder: Result<BuilderType, Error>)
    requires p.daytonaDownloadUrl.Some?
  {
    IsLocal(project.target) && builder.Success? && builder.value != Devcontainer
    && rt.parseUrl(p.daytonaDownloadUrl.value).Success?
  }

  /** The rewrite reads the API port. */
  predicate RewriteDefined(p: WindowsProvider, rt: Runtime, project: Project, builder: Result<BuilderType, Error>)
    requires p.daytonaDownloadUrl.Some?
  {
    Rewrites(p, rt, project, builder) ==> p.apiPort.Some?
  }

  /** The URL library reads the one rewritten URL back as it was written. */
  predicate ReadsBackRewrite(p: WindowsProvider, rt: Runtime)
    requires p.daytonaDownloadUrl.Some? && p.apiPort.Some? && rt.parseUrl(p.daytonaDownloadUrl.value).Success?
  {
    var v := RewriteForLocal(rt.parseUrl(p.daytonaDownloadUrl.value).value, p.apiPort.value);
    rt.parseUrl(rt.formatUrl(v)) == Success(v)
  }

  /** Whenever the URL handed over differs from the configured one, it was a
      local, non-devcontainer start; and if the URL library reads the
      rewritten URL back as written, the new URL is http to the Docker host at
      the API port, with the rest of the configured URL kept. Go's `net/url`
      does not always do so: a configured URL with an opaque part, such as
      `localhost:3986/daytona`, is formatted without its new host. */
  lemma DownloadUrlRewriteRule(p: WindowsProvider, rt: Runtime, project: Project, builder: Result<BuilderType, Error>)
    requires p.daytonaDownloadUrl.Some? && RewriteDefined(p, rt, project, builder)
    ensures DownloadUrlFor(p, rt, project, builder) != p.daytonaDownloadUrl.value ==>
      IsLocal(project.target) && builder.Success? && builder.value != Devcontainer
    ensures !IsLocal(project.target) || builder == Success(Devcontainer) ==>
      DownloadUrlFor(p, rt, project, builder) == p.daytonaDownloadUrl.value
    ensures Rewrites(p, rt, project, builder) && ReadsBackRewrite(p, rt) ==>
      var given := rt.parseUrl(p.daytonaDownloadUrl.value).value;
      var handed := rt.parseUrl(DownloadUrlFor(p, rt, project, builder));
      && handed.Success?
      && handed.value.scheme == "http"
      && Strings.SplitHostPort(handed.value.host) == Some((DockerHost, p.apiPort.value as nat))
      && handed.value.rest == given.rest
  {
  }

  /** `StartProject` past the client: what it dereferences once the steps
      before each dereference succeeded — the base path or the data
      directory, the download URL, the API port when the URL is rewritten,
      and the SSH fields for a remote target. */
  predicate StartProjectDefined(p: WindowsProvider, host: Host, rt: Runtime, req: ProjectRequest) {
    var parsed := ParseTargetOptions(req.targetOptions);
    parsed.Success? && rt.openDocker(parsed.value, p.remoteSockDir).None? ==>
      && DirDefined(p, req.project.target, req.targetOptions)
      && p.daytonaDownloadUrl.Some?
      && (IsLocal(req.project.target) ==>
            RewriteDefined(p, rt, req.project, rt.detectBuilder(req.project, GetProjectDir(p, host, req).value)))
      && (!IsLocal(req.project.target) ==> SshFieldsDefined(req.targetOptions))
  }

  /** What the Docker start answers: the image start's error, or else how
      the agent start-up it leads to ends, blocking included. */
  function DockerStartResult(rt: Runtime, project: Project, dir: string, url: string, withSsh: bool): DockerStart.Completion {
    DockerStart.StartProject(rt.startImage(project, dir, withSsh), rt.agentTrace(project, url)).outcome
  }

  /** The Docker start, as the step that hands the project over to it. */
  function DockerStartAttempt(rt: Runtime, project: Project, dir: string, url: string, withSsh: bool): Attempt {
    Attempt(DockerStartProject(dir, url, withSsh), DockerStartResult(rt, project, dir, url, withSsh))
  }

  /** Steps that all succeeded, followed by the rest of the operation. */
  function Continue(done: seq<Step>, rest: Run): (run: Run)
    requires |rest.attempts| > 0
    ensures Steps(run) == done + Steps(rest)
    ensures Outcome(run) == Outcome(rest)
    ensures EarlyReturn(rest) ==> EarlyReturn(run)
    ensures SessionReleased(rest) ==> SessionReleased(run)
    ensures run.sessionOpened == rest.sessionOpened
  {
    var succeeded := seq(|done|, i requires 0 <= i < |done| => Attempt(done[i], Ok));
    var run := Run(succeeded + rest.attempts, rest.sessionOpened, rest.sessionClosed);
    assert forall i | 0 <= i < |run.attempts| - 1 ::
      run.attempts[i] == if i < |done| then succeeded[i] else rest.attempts[i - |done|];
    run
  }

  /** The steps of the local branch when none fails: builder detection, the
      URL parse unless the builder is devcontainer, then the Docker start
      with the (possibly rewritten) download URL and no SSH session. */
  function LocalPlan(p: WindowsProvider, rt: Runtime, project: Project, dir: string): seq<Step>
    requires p.daytonaDownloadUrl.Some?
    requires RewriteDefined(p, rt, project, rt.detectBuilder(project, dir))
  {
    var builder := rt.detectBuilder(project, dir);
    [DetectBuilder] + (if builder != Success(Devcontainer) then [ParseDownloadUrl] else [])
      + [DockerStartProject(dir, DownloadUrlFor(p, rt, project, builder), false)]
  }

  /** What each step of the local branch answers, in plan order. */
  function LocalResults(p: WindowsProvider, rt: Runtime, project: Project, dir: string): (results: seq<DockerStart.Completion>)
    requires p.daytonaDownloadUrl.Some?
    requires RewriteDefined(p, rt, project, rt.detectBuilder(project, dir))
    ensures |results| == |LocalPlan(p, rt, project, dir)|
  {
    var builder := rt.detectBuilder(project, dir);
    [ResultOf(builder)]
      + (if builder != Success(Devcontainer) then [ResultOf(rt.parseUrl(p.daytonaDownloadUrl.value))] else [])
      + [DockerStartResult(rt, project, dir, DownloadUrlFor(p, rt, project, builder), false)]
  }

  /** The steps of the remote branch when none fails. */
  function RemotePlan(dir: string, url: string): seq<Step> {
    [OpenSsh, DockerStartProject(dir, url, true)]
  }

  /** What each step of the remote branch answers, in plan order. */
  function RemoteResults(rt: Runtime, req: ProjectRequest, dir: string, url: string): seq<DockerStart.Completion>
    requires !IsLocal(req.project.target) ==> SshFieldsDefined(req.targetOptions)
  {
    [SessionResult(rt, req.project.target, req.targetOptions), DockerStartResult(rt, req.project, dir, url, true)]
  }

  /** The steps `StartProject` takes when none fails, once the client is
      open and the directory known. */
  function StartPlan(p: WindowsProvider, host: Host, rt: Runtime, req: ProjectRequest): seq<Step>
    requires StartProjectDefined(p, host, rt, req)
    requires GetClient(p, rt, req.targetOptions).Success?
  {
    var dir := GetProjectDir(p, host, req).value;
    [OpenDocker, ResolveDir]
      + if IsLocal(req.project.target) then LocalPlan(p, rt, req.project, dir)
        else RemotePlan(dir, p.daytonaDownloadUrl.value)
  }

  /** What each step of `StartProject` answers, in plan order, each from the
      call it makes alone. */
  function StartResults(p: WindowsProvider, host: Host, rt: Runtime, req: ProjectRequest): (results: seq<DockerStart.Completion>)
    requires StartProjectDefined(p, host, rt, req)
    requires GetClient(p, rt, req.targetOptions).Success?
    ensures |results| == |StartPlan(p, host, rt, req)|
  {
    var dir := GetProjectDir(p, host, req).value;
    [ResultOf(GetClient(p, rt, req.targetOptions)), ResultOf(GetProjectDir(p, host, req))]
      + if IsLocal(req.project.target) then LocalResults(p, rt, req.project, dir)
        else RemoteResults(rt, req, dir, p.daytonaDownloadUrl.value)
  }

  /** The local branch of `StartProject`. */
  function StartLocal(p: WindowsProvider, rt: Runtime, project: Project, dir: string): (run: Run)
    requires IsLocal(project.target) && p.daytonaDownloadUrl.Some?
    requires RewriteDefined(p, rt, project, rt.detectBuilder(project, dir))
    ensures StopsAtFirstFailure(run, LocalPlan(p, rt, project, dir), LocalResults(p, rt, project, dir))
    ensures EarlyReturn(run) && !run.sessionOpened && !run.sessionClosed
    ensures Steps(run) <= LocalPlan(p, rt, project, dir)
    ensures Outcome(run) == Ok ==> Steps(run) == LocalPlan(p, rt, project, dir)
  {
    var url := p.daytonaDownloadUrl.value;
    var builder := rt.detectBuilder(project, dir);
    var run :=
      if builder.Failure? then NoSession([Attempt(DetectBuilder, Fail(builder.error))])
      else
        var detected := Attempt(DetectBuilder, Ok);
        if builder.value == Devcontainer then
          NoSession([detected, DockerStartAttempt(rt, project, dir, url, false)])
        else
          var parsed := rt.parseUrl(url);
          if parsed.Failure? then NoSession([detected, Attempt(ParseDownloadUrl, Fail(parsed.error))])
          else
            var rewritten := rt.formatUrl(RewriteForLocal(parsed.value, p.apiPort.value));
            NoSession([detected, Attempt(ParseDownloadUrl, Ok), DockerStartAttempt(rt, project, dir, rewritten, false)]);
    StopsAtFirstFailureShape(run, LocalPlan(p, rt, project, dir), LocalResults(p, rt, project, dir));
    run
  }

  /** The remote branch of `StartProject`: the SSH session, then the Docker
      start over it. */
  function StartRemote(rt: Runtime, req: ProjectRequest, dir: string, url: string): (run: Run)
    requires !IsLocal(req.project.target) && SshFieldsDefined(req.targetOptions)
    ensures StopsAtFirstFailure(run, RemotePlan(dir, url), RemoteResults(rt, req, dir, url))
    ensures run.sessionOpened <==> SessionOpens(rt, req.project.target, req.targetOptions)
    ensures EarlyReturn(run) && SessionReleased(run)
    ensures Steps(run) <= RemotePlan(dir, url)
    ensures Outcome(run) == Ok ==> Steps(run) == RemotePlan(dir, url)
  {
    var config := SshSessionFor(req.project.target, req.targetOptions);
    var run :=
      if config.Failure? then NoSession([Attempt(OpenSsh, Fail(config.error))])
      else if rt.openSession(config.value.value).Some? then
        NoSession([Attempt(OpenSsh, OptionResult(rt.openSession(config.value.value)))])
      else
        WithSession([Attempt(OpenSsh, Ok), DockerStartAttempt(rt, req.project, dir, url, true)]);
    StopsAtFirstFailureShape(run, RemotePlan(dir, url), RemoteResults(rt, req, dir, url));
    run
  }

  /** `StartProject`: open the client, find the project directory, then for
      the local target detect the builder and, unless it is devcontainer,
      rewrite the download URL, and for a remote target open an SSH session;
      finally start the project in Docker. Every step ends as the call it
      makes answers, and the first that does not succeed ends the operation;
      the container-log follower started after a successful start is not
      modelled. */
  function StartProject(p: WindowsProvider, host: Host, rt: Runtime, req: ProjectRequest): (run: Run)
    requires StartProjectDefined(p, host, rt, req)
    ensures EarlyReturn(run) && SessionReleased(run)
    ensures run.sessionOpened <==>
      GetClient(p, rt, req.targetOptions).Success? && !IsLocal(req.project.target)
      && SessionOpens(rt, req.project.target, req.targetOptions)
    ensures GetClient(p, rt, req.targetOptions).Failure? ==>
      Steps(run) == [OpenDocker] && Outcome(run) == Fail(GetClient(p, rt, req.targetOptions).error)
    ensures GetClient(p, rt, req.targetOptions).Success? ==>
      && StopsAtFirstFailure(run, StartPlan(p, host, rt, req), StartResults(p, host, rt, req))
      && Steps(run) <= StartPlan(p, host, rt, req)
      && |Steps(run)| > 2
      && (Outcome(run) == Ok ==> Steps(run) == StartPlan(p, host, rt, req))
  {
    var client := GetClient(p, rt, req.targetOptions);
    if client.Failure? then NoSession([Attempt(OpenDocker, Fail(client.error))])
    else StartAfterClient(p, host, rt, req)
  }

  /** `StartProject` once the client is open. */
  function StartAfterClient(p: WindowsProvider, host: Host, rt: Runtime, req: ProjectRequest): (run: Run)
    requires StartProjectDefined(p, host, rt, req)
    requires GetClient(p, rt, req.targetOptions).Success?
    ensures EarlyReturn(run) && SessionReleased(run)
    ensures run.sessionOpened <==>
      !IsLocal(req.project.target) && SessionOpens(rt, req.project.target, req.targetOptions)
    ensures StopsAtFirstFailure(run, StartPlan(p, host, rt, req), StartResults(p, host, rt, req))
    ensures Steps(run) <= StartPlan(p, host, rt, req) && |Steps(run)| > 2
    ensures Outcome(run) == Ok ==> Steps(run) == StartPlan(p, host, rt, req)
  {
    var dir := GetProjectDir(p, host, req).value;
    var url := p.daytonaDownloadUrl.value;
    var done := [OpenDocker, ResolveDir];
    var doneResults := [ResultOf(GetClient(p, rt, req.targetOptions)), ResultOf(GetProjectDir(p, host, req))];
    var rest := if IsLocal(req.project.target) then StartLocal(p, rt, req.project, dir)
                else StartRemote(rt, req, dir, url);
    var tail := if IsLocal(req.project.target) then LocalPlan(p, rt, req.project, dir) else RemotePlan(dir, url);
    var tailResults := if IsLocal(req.project.target) then LocalResults(p, rt, req.project, dir)
                       else RemoteResults(rt, req, dir, url);
    ContinueStops(done, doneResults, rest, tail, tailResults);
    var run := Continue(done, rest);
    StopsAtFirstFailureShape(run, StartPlan(p, host, rt, req), StartResults(p, host, rt, req));
    run
  }

  /** Every step before the Docker start succeeds: the client opens and, for
      the local target, builder detection succeeds and so does the URL parse
      unless the builder is devcontainer; for a remote target the SSH
      session opens. */
  predicate ReachesDockerStart(p: WindowsProvider, host: Host, rt: Runtime, req: ProjectRequest)
    requires StartProjectDefined(p, host, rt, req)
  {
    && GetClient(p, rt, req.targetOptions).Success?
    && var dir := GetProjectDir(p, host, req).value;
    && if IsLocal(req.project.target) then
         var builder := rt.detectBuilder(req.project, dir);
         builder.Success? && (builder.value != Devcontainer ==> rt.parseUrl(p.daytonaDownloadUrl.value).Success?)
       else SessionOpens(rt, req.project.target, req.targetOptions)
  }

  /** The download URL `StartProject` hands to the Docker start. */
  function HandedUrl(p: WindowsProvider, rt: Runtime, req: ProjectRequest, dir: string): string
    requires p.daytonaDownloadUrl.Some?
    requires IsLocal(req.project.target) ==> RewriteDefined(p, rt, req.project, rt.detectBuilder(req.project, dir))
  {
    if IsLocal(req.project.target) then DownloadUrlFor(p, rt, req.project, rt.detectBuilder(req.project, dir))
    else p.daytonaDownloadUrl.value
  }

  /** In the local branch, a failing builder detection or URL parse is where
      `StartProject` returns, with that call's error. */
  lemma StartProjectLocalFailures(p: WindowsProvider, host: Host, rt: Runtime, req: ProjectRequest)
    requires StartProjectDefined(p, host, rt, req)
    requires GetClient(p, rt, req.targetOptions).Success? && IsLocal(req.project.target)
    ensures
      var run := StartProject(p, host, rt, req);
      var builder := rt.detectBuilder(req.project, GetProjectDir(p, host, req).value);
      var parsed := rt.parseUrl(p.daytonaDownloadUrl.value);
      && (builder.Failure? ==>
            Steps(run) == [OpenDocker, ResolveDir, DetectBuilder] && Outcome(run) == Fail(builder.error))
      && (builder.Success? && builder.value != Devcontainer && parsed.Failure? ==>
            Steps(run) == [OpenDocker, ResolveDir, DetectBuilder, ParseDownloadUrl] && Outcome(run) == Fail(parsed.error))
  {
    var run := StartProject(p, host, rt, req);
    var plan := StartPlan(p, host, rt, req);
    var results := StartResults(p, host, rt, req);
    var builder := rt.detectBuilder(req.project, GetProjectDir(p, host, req).value);
    if builder.Failure? {
      EndsAtFirstFailure(run, plan, results, 2);
      assert plan[..3] == [OpenDocker, ResolveDir, DetectBuilder];
    } else if builder.value != Devcontainer && rt.parseUrl(p.daytonaDownloadUrl.value).Failure? {
      EndsAtFirstFailure(run, plan, results, 3);
      assert plan[..4] == [OpenDocker, ResolveDir, DetectBuilder, ParseDownloadUrl];
    }
  }

  /** In the remote branch, the options that opened the client always give
      an SSH configuration; a session the SSH library refuses is where
      `StartProject` returns, with that error, and no session is left to
      close. */
  lemma StartProjectRemoteFailures(p: WindowsProvider, host: Host, rt: Runtime, req: ProjectRequest)
    requires StartProjectDefined(p, host, rt, req)
    requires GetClient(p, rt, req.targetOptions).Success? && !IsLocal(req.project.target)
    ensures
      var run := StartProject(p, host, rt, req);
      var config := SshSessionFor(req.project.target, req.targetOptions);
      && config.Success? && config.value.Some?
      && (rt.openSession(config.value.value).Some? ==>
            && Steps(run) == [OpenDocker, ResolveDir, OpenSsh]
            && Outcome(run) == Fail(rt.openSession(config.value.value).value)
            && !run.sessionOpened)
  {
    var run := StartProject(p, host, rt, req);
    var plan := StartPlan(p, host, rt, req);
    var results := StartResults(p, host, rt, req);
    var config := SshSessionFor(req.project.target, req.targetOptions);
    if rt.openSession(config.value.value).Some? {
      EndsAtFirstFailure(run, plan, results, 2);
      assert plan[..3] == [OpenDocker, ResolveDir, OpenSsh];
    }
  }

  /** Once every step before it succeeded, the Docker start runs with the
      project directory and the handed-over URL, and whatever it answers,
      blocking included, is `StartProject`'s outcome. */
  lemma StartProjectReachesDocker(p: WindowsProvider, host: Host, rt: Runtime, req: ProjectRequest)
    requires StartProjectDefined(p, host, rt, req)
    requires ReachesDockerStart(p, host, rt, req)
    ensures
      var run := StartProject(p, host, rt, req);
      var dir := GetProjectDir(p, host, req).value;
      && Steps(run) == StartPlan(p, host, rt, req)
      && Outcome(run)
         == DockerStartResult(rt, req.project, dir, HandedUrl(p, rt, req, dir), !IsLocal(req.project.target))
  {
    var run := StartProject(p, host, rt, req);
    var plan := StartPlan(p, host, rt, req);
    var results := StartResults(p, host, rt, req);
    assert forall i | 0 <= i < |plan| - 1 :: results[i] == Ok;
    RunsWholePlan(run, plan, results);
  }

  /** `StartProject` waits forever exactly when every step before the Docker
      start succeeded, the image started, and neither agent watcher ever
      signals: no scanned line holds the marker and the start-up command, if
      it returned, exited with status 0. */
  lemma StartProjectBlocks(p: WindowsProvider, host: Host, rt: Runtime, req: ProjectRequest)
    requires StartProjectDefined(p, host, rt, req)
    ensures Outcome(StartProject(p, host, rt, req)).Blocks? <==>
      && ReachesDockerStart(p, host, rt, req)
      && var dir := GetProjectDir(p, host, req).value;
      && rt.startImage(req.project, dir, !IsLocal(req.project.target)).None?
      && var trace := rt.agentTrace(req.project, HandedUrl(p, rt, req, dir));
      && DockerStart.MarkerLine(DockerStart.ScannedLines(trace)).None?
      && forall j | 0 <= j < |trace| && trace[j].ExecReturned? :: DockerStart.CompletionSignal(trace[j].result).None?
  {
    if ReachesDockerStart(p, host, rt, req) {
      var dir := GetProjectDir(p, host, req).value;
      StartProjectReachesDocker(p, host, rt, req);
      DockerStart.BlocksIffBothWatchersSilent(rt.agentTrace(req.project, HandedUrl(p, rt, req, dir)));
    } else {
      StartProjectReturnsEarly(p, host, rt, req);
    }
  }

  /** A failure before the Docker start makes `StartProject` return. */
  lemma StartProjectReturnsEarly(p: WindowsProvider, host: Host, rt: Runtime, req: ProjectRequest)
    requires StartProjectDefined(p, host, rt, req)
    requires !ReachesDockerStart(p, host, rt, req)
    ensures Outcome(StartProject(p, host, rt, req)).Returned?
  {
    if GetClient(p, rt, req.targetOptions).Success? {
      if IsLocal(req.project.target) {
        StartProjectLocalFailures(p, host, rt, req);
      } else {
        StartProjectRemoteFailures(p, host, rt, req);
      }
    }
  }

  /** What a destroy operation dereferences once its client is open: the
      directory's root, and the SSH fields for a remote target. */
  predicate DestroyDefined(p: WindowsProvider, rt: Runtime, targetName: string, options: OptionsJson) {
    var parsed := ParseTargetOptions(options);
    parsed.Success? && rt.openDocker(parsed.value, p.remoteSockDir).None? ==>
      DirDefined(p, targetName, options) && (!IsLocal(targetName) ==> SshFieldsDefined(options))
  }

  /** The steps a destroy operation takes when none fails: the SSH session
      only for a remote target, then the Docker call with the directory. */
  function DestroyPlan(targetName: string, dir: string): seq<Step> {
    [OpenDocker, ResolveDir] + (if IsLocal(targetName) then [] else [OpenSsh])
      + [DockerDestroy(dir, !IsLocal(targetName))]
  }

  /** What each step of a destroy operation answers, in plan order: the
      client, the directory, the SSH step for a remote target, and what the
      Docker removal returns (`destroyed`). */
  function DestroyResults(client: Result<TargetOptions, Error>, dir: Result<string, Error>, targetName: string,
                          options: OptionsJson, rt: Runtime, destroyed: Option<Error>): (results: seq<DockerStart.Completion>)
    requires client.Success? && dir.Success?
    requires !IsLocal(targetName) ==> SshFieldsDefined(options)
    ensures |results| == |DestroyPlan(targetName, dir.value)|
  {
    [ResultOf(client), ResultOf(dir)]
      + (if IsLocal(targetName) then [] else [SessionResult(rt, targetName, options)])
      + [OptionResult(destroyed)]
  }

  /** The part the two destroy operations share: given the client's and the
      directory's results, open the session a remote target needs and hand
      over to Docker. */
  function DestroyRun(client: Result<TargetOptions, Error>, dir: Result<string, Error>, targetName: string,
                      options: OptionsJson, rt: Runtime, destroy: (string, bool) -> Option<Error>): (run: Run)
    requires client.Success? && dir.Success? && !IsLocal(targetName) ==> SshFieldsDefined(options)
    ensures EarlyReturn(run) && SessionReleased(run)
    ensures run.sessionOpened <==> client.Success? && dir.Success? && SessionOpens(rt, targetName, options)
    ensures client.Failure? ==> Steps(run) == [OpenDocker] && Outcome(run) == Fail(client.error)
    ensures client.Success? && dir.Failure? ==>
      Steps(run) == [OpenDocker, ResolveDir] && Outcome(run) == Fail(dir.error)
    ensures client.Success? && dir.Success? ==>
      && StopsAtFirstFailure(run, DestroyPlan(targetName, dir.value),
           DestroyResults(client, dir, targetName, options, rt, destroy(dir.value, !IsLocal(targetName))))
      && Steps(run) <= DestroyPlan(targetName, dir.value)
      && |Steps(run)| > 2
      && (Outcome(run) == Ok <==>
            Steps(run) == DestroyPlan(targetName, dir.value) && destroy(dir.value, !IsLocal(targetName)).None?)
  {
    if client.Failure? then NoSession([Attempt(OpenDocker, Fail(client.error))])
    else if dir.Failure? then NoSession([Attempt(OpenDocker, Ok), Attempt(ResolveDir, Fail(dir.error))])
    else DestroyInDir(client, dir, targetName, options, rt, destroy)
  }

  /** `DestroyRun` once the client is open and the directory known. */
  function DestroyInDir(client: Result<TargetOptions, Error>, dir: Result<string, Error>, targetName: string,
                        options: OptionsJson, rt: Runtime, destroy: (string, bool) -> Option<Error>): (run: Run)
    requires client.Success? && dir.Success? && (!IsLocal(targetName) ==> SshFieldsDefined(options))
    ensures EarlyReturn(run) && SessionReleased(run)
    ensures run.sessionOpened <==> SessionOpens(rt, targetName, options)
    ensures StopsAtFirstFailure(run, DestroyPlan(targetName, dir.value),
              DestroyResults(client, dir, targetName, options, rt, destroy(dir.value, !IsLocal(targetName))))
    ensures Steps(run) <= DestroyPlan(targetName, dir.value) && |Steps(run)| > 2
    ensures Outcome(run) == Ok <==>
      Steps(run) == DestroyPlan(targetName, dir.value) && destroy(dir.value, !IsLocal(targetName)).None?
  {
    var run :=
      if IsLocal(targetName) then
        NoSession([Attempt(OpenDocker, Ok), Attempt(ResolveDir, Ok),
                   Attempt(DockerDestroy(dir.value, false), OptionResult(destroy(dir.value, false)))])
      else DestroyRemote(client, dir, targetName, options, rt, destroy);
    StopsAtFirstFailureShape(run, DestroyPlan(targetName, dir.value),
      DestroyResults(client, dir, targetName, options, rt, destroy(dir.value, !IsLocal(targetName))));
    run
  }

  /** The remote target's part of `DestroyInDir`: the SSH session, then the
      Docker removal over it. */
  function DestroyRemote(client: Result<TargetOptions, Error>, dir: Result<string, Error>, targetName: string,
                         options: OptionsJson, rt: Runtime, destroy: (string, bool) -> Option<Error>): (run: Run)
    requires client.Success? && dir.Success? && !IsLocal(targetName) && SshFieldsDefined(options)
    ensures SessionReleased(run)
    ensures run.sessionOpened <==> SessionOpens(rt, targetName, options)
    ensures StopsAtFirstFailure(run, DestroyPlan(targetName, dir.value),
              DestroyResults(client, dir, targetName, options, rt, destroy(dir.value, true)))
  {
    var a0 := Attempt(OpenDocker, Ok);
    var a1 := Attempt(ResolveDir, Ok);
    var config := SshSessionFor(targetName, options);
    if config.Failure? then NoSession([a0, a1, Attempt(OpenSsh, Fail(config.error))])
    else if rt.openSession(config.value.value).Some? then
      NoSession([a0, a1, Attempt(OpenSsh, OptionResult(rt.openSession(config.value.value)))])
    else
      WithSession([a0, a1, Attempt(OpenSsh, Ok),
                   Attempt(DockerDestroy(dir.value, true), OptionResult(destroy(dir.value, true)))])
  }

  /** For a destroy run that stops at its first failure: options that give
      no SSH configuration, or a session the SSH library refuses, end it at
      the SSH step with that error; once the SSH step succeeds (always, for
      the local target) the whole plan runs and the operation returns what
      the Docker removal returned. */
  lemma DestroyEndsAtFailingCall(run: Run, client: Result<TargetOptions, Error>, dir: Result<string, Error>,
                                 targetName: string, options: OptionsJson, rt: Runtime, destroyed: Option<Error>)
    requires client.Success? && dir.Success? && (!IsLocal(targetName) ==> SshFieldsDefined(options))
    requires StopsAtFirstFailure(run, DestroyPlan(targetName, dir.value),
                                 DestroyResults(client, dir, targetName, options, rt, destroyed))
    ensures
      var config := SshSessionFor(targetName, options);
      && (!IsLocal(targetName) ==>
            && (config.Failure? ==>
                  Steps(run) == [OpenDocker, ResolveDir, OpenSsh] && Outcome(run) == Fail(config.error))
            && (config.Success? && rt.openSession(config.value.value).Some? ==>
                  Steps(run) == [OpenDocker, ResolveDir, OpenSsh]
                  && Outcome(run) == Fail(rt.openSession(config.value.value).value)))
      && (IsLocal(targetName) || SessionOpens(rt, targetName, options) ==>
            Steps(run) == DestroyPlan(targetName, dir.value) && Outcome(run) == OptionResult(destroyed))
  {
    var plan := DestroyPlan(targetName, dir.value);
    var results := DestroyResults(client, dir, targetName, options, rt, destroyed);
    if IsLocal(targetName) || SessionOpens(rt, targetName, options) {
      assert forall i | 0 <= i < |plan| - 1 :: results[i] == Ok;
      RunsWholePlan(run, plan, results);
    } else {
      EndsAtFirstFailure(run, plan, results, 2);
      assert plan[..3] == [OpenDocker, ResolveDir, OpenSsh];
    }
  }

  /** `DestroyProject`: client, project directory, SSH session for a remote
      target, then the Docker removal, each step ending as its call answers. */
  function DestroyProject(p: WindowsProvider, host: Host, rt: Runtime, req: ProjectRequest): (run: Run)
    requires DestroyDefined(p, rt, req.project.target, req.targetOptions)
    ensures EarlyReturn(run) && SessionReleased(run) && Outcome(run).Returned?
    ensures run.sessionOpened <==>
      GetClient(p, rt, req.targetOptions).Success? && SessionOpens(rt, req.project.target, req.targetOptions)
    ensures GetClient(p, rt, req.targetOptions).Failure? ==>
      Steps(run) == [OpenDocker] && Outcome(run) == Fail(GetClient(p, rt, req.targetOptions).error)
    ensures GetClient(p, rt, req.targetOptions).Success? ==>
      && GetProjectDir(p, host, req).Success?
      && var dir := GetProjectDir(p, host, req).value;
      && StopsAtFirstFailure(run, DestroyPlan(req.project.target, dir),
           DestroyResults(GetClient(p, rt, req.targetOptions), GetProjectDir(p, host, req), req.project.target,
                          req.targetOptions, rt, rt.destroyProject(req.project, dir, !IsLocal(req.project.target))))
      && Steps(run) <= DestroyPlan(req.project.target, dir)
      && (Outcome(run) == Ok <==>
            Steps(run) == DestroyPlan(req.project.target, dir) && rt.destroyProject(req.project, dir, !IsLocal(req.project.target)).None?)
  {
    var client := GetClient(p, rt, req.targetOptions);
    var dir := if client.Success? then GetProjectDir(p, host, req) else Failure(client.error);
    DestroyRun(client, dir, req.project.target, req.targetOptions, rt,
               (d, ssh) => rt.destroyProject(req.project, d, ssh))
  }

  /** `DestroyWorkspace`: the same pipeline on the workspace directory. */
  function DestroyWorkspace(p: WindowsProvider, host: Host, rt: Runtime, req: WorkspaceRequest): (run: Run)
    requires DestroyDefined(p, rt, req.workspace.target, req.targetOptions)
    ensures EarlyReturn(run) && SessionReleased(run) && Outcome(run).Returned?
    ensures run.sessionOpened <==>
      GetClient(p, rt, req.targetOptions).Success? && SessionOpens(rt, req.workspace.target, req.targetOptions)
    ensures GetClient(p, rt, req.targetOptions).Failure? ==>
      Steps(run) == [OpenDocker] && Outcome(run) == Fail(GetClient(p, rt, req.targetOptions).error)
    ensures GetClient(p, rt, req.targetOptions).Success? ==>
      && GetWorkspaceDir(p, host, req).Success?
      && var dir := GetWorkspaceDir(p, host, req).value;
      && StopsAtFirstFailure(run, DestroyPlan(req.workspace.target, dir),
           DestroyResults(GetClient(p, rt, req.targetOptions), GetWorkspaceDir(p, host, req), req.workspace.target,
                          req.targetOptions, rt, rt.destroyWorkspace(req.workspace, dir, !IsLocal(req.workspace.target))))
      && Steps(run) <= DestroyPlan(req.workspace.target, dir)
      && (Outcome(run) == Ok <==>
            Steps(run) == DestroyPlan(req.workspace.target, dir) && rt.destroyWorkspace(req.workspace, dir, !IsLocal(req.workspace.target)).None?)
  {
    var client := GetClient(p, rt, req.targetOptions);
    var dir := if client.Success? then GetWorkspaceDir(p, host, req) else Failure(client.error);
    DestroyRun(client, dir, req.workspace.target, req.targetOptions, rt,
               (d, ssh) => rt.destroyWorkspace(req.workspace, d, ssh))
  }
}

=== FILE: strings.dfy ===
/** String helpers shared by the model: substring search (Go's
    `strings.Contains`), decimal formatting (`%d`) with its parser, path joining
    (`path.Join` / `filepath.Join` without cleaning) with its splitter, and
    host:port splitting. Each operation comes with the partner that shows what
    it means. */
module Strings {
  import opened Wrappers

  /*** Substring search ***/

  /** Go's `strings.Contains(s, sub)`, as a left-to-right scan. */
  predicate Contains(s: string, sub: string)
    decreases |s|
  {
    |sub| <= |s| && (s[..|sub|] == sub || Contains(s[1..], sub))
  }

  /** `sub` is found in `s` starting at index `i`. */
  ghost predicate OccursAt(s: string, sub: string, i: int) {
    0 <= i && i + |sub| <= |s| && s[i..i + |sub|] == sub
  }

  /** The scan finds `sub` exactly when it occurs somewhere in `s`. */
  lemma {:induction false} ContainsIffOccurs(s: string, sub: string)
    ensures Contains(s, sub) <==> exists i :: OccursAt(s, sub, i)
    decreases |s|
  {
    if |sub| > |s| {
    } else if s[..|sub|] == sub {
      assert OccursAt(s, sub, 0);
    } else {
      ContainsIffOccurs(s[1..], sub);
      if Contains(s[1..], sub) {
        var i :| OccursAt(s[1..], sub, i);
        assert s[1..][i..i + |sub|] == s[i + 1..i + 1 + |sub|];
        assert OccursAt(s, sub, i + 1);
      }
      if exists i :: OccursAt(s, sub, i) {
        var i :| OccursAt(s, sub, i);
        assert i != 0;
        assert s[i..i + |sub|] == s[1..][i - 1..i - 1 + |sub|];
        assert OccursAt(s[1..], sub, i - 1);
      }
    }
  }

  /** A string that contains `sub` still contains it after anything is added. */
  lemma ContainsInExtension(s: string, sub: string, before: string, after: string)
    requires Contains(s, sub)
    ensures Contains(before + s + after, sub)
  {
    ContainsIffOccurs(s, sub);
    var i :| OccursAt(s, sub, i);
    var t := before + s + after;
    assert t[|before| + i..|before| + i + |sub|] == s[i..i + |sub|];
    assert OccursAt(t, sub, |before| + i);
    ContainsIffOccurs(t, sub);
  }

  /** A prefix's substring is a substring of the whole. */
  lemma ContainsInPrefix(s: string, n: nat, sub: string)
    requires n <= |s| && Contains(s[..n], sub)
    ensures Contains(s, sub)
  {
    ContainsInExtension(s[..n], sub, "", s[n..]);
    assert "" + s[..n] + s[n..] == s;
  }

  /** A suffix's substring is a substring of the whole. */
  lemma ContainsInSuffix(s: string, n: nat, sub: string)
    requires n <= |s| && Contains(s[n..], sub)
    ensures Contains(s, sub)
  {
    ContainsInExtension(s[n..], sub, s[..n], "");
    assert s[..n] + s[n..] + "" == s;
  }

  /*** Prefixes ***/

  /** A prefix stays a prefix behind a common start. */
  lemma PrefixBehind<T>(done: seq<T>, a: seq<T>, b: seq<T>)
    requires a <= b
    ensures done + a <= done + b
  {
    assert done + b == (done + a) + b[|a|..];
  }

  /*** Decimal numbers ***/

  predicate IsDigit(c: char) {
    '0' <= c <= '9'
  }

  function DigitChar(d: nat): (c: char)
    requires d < 10
    ensures IsDigit(c)
  {
    ('0' as int + d) as char
  }

  function DigitValue(c: char): nat
    requires IsDigit(c)
  {
    c as int - '0' as int
  }

  /** Go's `fmt.Sprintf("%d", n)` for a non-negative `n`: digits only, no
      leading zero. */
  function Decimal(n: nat): (r: string)
    ensures |r| > 0
    ensures forall i | 0 <= i < |r| :: IsDigit(r[i])
    ensures r[0] == '0' ==> n == 0
    decreases n
  {
    if n < 10 then [DigitChar(n)] else Decimal(n / 10) + [DigitChar(n % 10)]
  }

  /** Reads a non-empty run of decimal digits; anything else is `None`. */
  function ParseDecimal(s: string): Option<nat>
    decreases |s|
  {
    if |s| == 0 || !IsDigit(s[|s| - 1]) then None
    else if |s| == 1 then Some(DigitValue(s[0]))
    else
      match ParseDecimal(s[..|s| - 1])
      case None => None
      case Some(high) => Some(10 * high + DigitValue(s[|s| - 1]))
  }

  /** Formatting a number and reading it back gives the number. */
  lemma {:induction false} ParseDecimalInvertsDecimal(n: nat)
    ensures ParseDecimal(Decimal(n)) == Some(n)
    decreases n
  {
    if n >= 10 {
      ParseDecimalInvertsDecimal(n / 10);
      var s := Decimal(n);
      assert s[..|s| - 1] == Decimal(n / 10);
    }
  }

  /*** Separators ***/

  /** Position of the first `c` in `s`. */
  function IndexOf(s: string, c: char): (r: Option<nat>)
    ensures r.Some? ==> r.value < |s| && s[r.value] == c
    ensures r.Some? ==> forall j | 0 <= j < r.value :: s[j] != c
    ensures r.None? ==> forall j | 0 <= j < |s| :: s[j] != c
    decreases |s|
  {
    if |s| == 0 then None
    else if s[0] == c then Some(0)
    else match IndexOf(s[1..], c)
      case None => None
      case Some(i) => Some(i + 1)
  }

  /** The first `c` after a `c`-free prefix is the one right after it. */
  lemma IndexOfAfter(a: string, c: char, b: string)
    requires c !in a
    ensures IndexOf(a + [c] + b, c) == Some(|a|)
  {
    var s := a + [c] + b;
    assert s[|a|] == c;
    assert forall j | 0 <= j < |a| :: s[j] == a[j] && a[j] in a;
  }

  /** Text added after a `c` leaves the position of the first `c` alone. */
  lemma IndexOfExtended(a: string, c: char, b: string)
    requires IndexOf(a, c).Some?
    ensures IndexOf(a + b, c) == IndexOf(a, c)
  {
    var i := IndexOf(a, c).value;
    assert (a + b)[i] == c;
    assert forall j | 0 <= j < i :: (a + b)[j] == a[j];
  }

  /** Position of the last `c` in `s`. */
  function LastIndexOf(s: string, c: char): (r: Option<nat>)
    ensures r.Some? ==> r.value < |s| && s[r.value] == c
    ensures r.Some? ==> forall j | r.value < j < |s| :: s[j] != c
    ensures r.None? ==> forall j | 0 <= j < |s| :: s[j] != c
    decreases |s|
  {
    if |s| == 0 then None
    else if s[|s| - 1] == c then Some(|s| - 1)
    else LastIndexOf(s[..|s| - 1], c)
  }

  /** The separator written between `a` and a separator-free `b` is the last one. */
  lemma {:induction false} LastIndexOfSeparator(a: string, c: char, b: string)
    requires c !in b
    ensures LastIndexOf(a + [c] + b, c) == Some(|a|)
    decreases |b|
  {
    var s := a + [c] + b;
    if |b| == 0 {
      assert s == a + [c];
    } else {
      var b' := b[..|b| - 1];
      assert b[|b| - 1] in b;
      assert s[|s| - 1] == b[|b| - 1];
      assert s[..|s| - 1] == a + [c] + b';
      assert forall i | 0 <= i < |b'| :: b'[i] in b;
      LastIndexOfSeparator(a, c, b');
    }
  }

  /*** Paths ***/

  /** `path.Join` (with `sep` = '/') and `filepath.Join` (with the host's
      separator), without the final cleaning step: the non-empty elements,
      in order, with one separator between neighbours. */
  function Join(sep: char, elems: seq<string>): string
    decreases |elems|
  {
    if |elems| == 0 then ""
    else
      var init := Join(sep, elems[..|elems| - 1]);
      var last := elems[|elems| - 1];
      if last == "" then init
      else if init == "" then last
      else init + [sep] + last
  }

  /** The elements of `elems` that are not empty, in order. */
  function NonEmpty(elems: seq<string>): (r: seq<string>)
    ensures forall i | 0 <= i < |r| :: r[i] != ""
    decreases |elems|
  {
    if |elems| == 0 then []
    else
      var rest := NonEmpty(elems[..|elems| - 1]);
      if elems[|elems| - 1] == "" then rest else rest + [elems[|elems| - 1]]
  }

  /** The pieces of `s` between separators, empty ones included. */
  function Split(sep: char, s: string): (r: seq<string>)
    ensures |r| > 0
    decreases |s|
  {
    match LastIndexOf(s, sep)
    case None => [s]
    case Some(i) => Split(sep, s[..i]) + [s[i + 1..]]
  }

  /** Splitting a joined path gives back exactly its non-empty elements, as
      long as no element holds the separator itself. */
  lemma {:induction false} SplitRecoversJoin(sep: char, elems: seq<string>)
    requires forall i | 0 <= i < |elems| :: sep !in elems[i]
    ensures NonEmpty(Split(sep, Join(sep, elems))) == NonEmpty(elems)
    decreases |elems|
  {
    if |elems| == 0 {
      assert Split(sep, "") == [""];
      assert NonEmpty([""]) == [];
    } else {
      var prefix := elems[..|elems| - 1];
      var init := Join(sep, prefix);
      var last := elems[|elems| - 1];
      SplitRecoversJoin(sep, prefix);
      if last == "" {
      } else if init == "" {
        assert Split(sep, "") == [""];
        assert NonEmpty([""]) == [];
        assert Split(sep, last) == [last];
        assert NonEmpty([last]) == NonEmpty([]) + [last];
      } else {
        var s := init + [sep] + last;
        LastIndexOfSeparator(init, sep, last);
        assert s[..|init|] == init;
        assert s[|init| + 1..] == last;
        var pieces := Split(sep, init);
        assert Split(sep, s) == pieces + [last];
        assert (pieces + [last])[..|pieces|] == pieces;
      }
    }
  }

  /*** Host and port ***/

  /** Splits "host:port" at the last colon; the port must be decimal digits. */
  function SplitHostPort(hostport: string): Option<(string, nat)>
  {
    match LastIndexOf(hostport, ':')
    case None => None
    case Some(i) =>
      match ParseDecimal(hostport[i + 1..])
      case None => None
      case Some(port) => Some((hostport[..i], port))
  }

  /** A host joined to a formatted port splits back into the two. */
  lemma HostPortRoundTrip(host: string, port: nat)
    ensures SplitHostPort(host + ":" + Decimal(port)) == Some((host, port))
  {
    var digits := Decimal(port);
    var s := host + ":" + digits;
    assert s == host + [':'] + digits;
    assert ':' !in digits by {
      forall i | 0 <= i < |digits| ensures digits[i] != ':' {
        assert IsDigit(digits[i]);
      }
    }
    LastIndexOfSeparator(host, ':', digits);
    assert s[|host| + 1..] == digits;
    assert s[..|host|] == host;
    ParseDecimalInvertsDecimal(port);
  }
}

=== FILE: targets.dfy ===
/** The target option model of `pkg/types/targets.go`: the optional-field
    `TargetOptions` record, the static manifest describing the options a user
    can fill in, and the parsing of a target's JSON options into the record.

    JSON text itself is not modelled: a target's options arrive as the result
    of decoding that text into a `JsonValue` (or the syntax error that decoding
    produced), and `ParseTargetOptions` models how Go's `encoding/json` fills
    the record's pointer fields from that value. */
module Targets {
  import opened Wrappers
  import opened Errors
  import Strings

  /*** The options record ***/

  /** The name of the preset target that runs on the local Docker socket. */
  const LocalTargetName: string := "local"

  /** The JSON keys of the option fields. */
  const HostnameKey: string := "Remote Hostname"
  const PortKey: string := "Remote Port"
  const UserKey: string := "Remote User"
  const PasswordKey: string := "Remote Password"
  const PrivateKeyKey: string := "Remote Private Key Path"
  const SockPathKey: string := "Sock Path"
  const WorkspaceDataDirKey: string := "Workspace Data Dir"

  const OptionKeys: set<string> :=
    {HostnameKey, PortKey, UserKey, PasswordKey, PrivateKeyKey, SockPathKey, WorkspaceDataDirKey}

  /** The fields of the record, in declaration order. */
  datatype Field =
    RemoteHostname | RemotePort | RemoteUser | RemotePassword | RemotePrivateKey | SockPath | WorkspaceDataDir

  /** The JSON tag of a field. */
  function Key(f: Field): (k: string)
    ensures k in OptionKeys
  {
    match f
    case RemoteHostname => HostnameKey
    case RemotePort => PortKey
    case RemoteUser => UserKey
    case RemotePassword => PasswordKey
    case RemotePrivateKey => PrivateKeyKey
    case SockPath => SockPathKey
    case WorkspaceDataDir => WorkspaceDataDirKey
  }

  /** No two fields share a tag. */
  lemma KeysDistinct(f: Field, g: Field)
    requires f != g
    ensures Key(f) != Key(g)
  {
    assert HostnameKey[7] == 'H' && PasswordKey[7] == 'P';
    assert PortKey[7] == 'P' && UserKey[7] == 'U';
  }

  /** Every field is optional; `None` is a nil pointer. */
  datatype TargetOptions = TargetOptions(
    remoteHostname: Option<string>,
    remotePort: Option<int>,
    remoteUser: Option<string>,
    remotePassword: Option<string>,
    remotePrivateKey: Option<string>,
    sockPath: Option<string>,
    workspaceDataDir: Option<string>)

  const NoOptions: TargetOptions := TargetOptions(None, None, None, None, None, None, None)

  /*** The manifest ***/

  datatype PropertyType = StringType | IntType

  datatype TargetProperty = TargetProperty(
    propertyType: PropertyType,
    defaultValue: string,
    description: string,
    /** A regular expression over target names; empty when there is none. */
    disabledPredicate: string,
    inputMasked: bool)

  /** The pattern that hides a property for the `local` target. */
  const LocalOnlyPattern: string := "^" + LocalTargetName + "$"

  const RemotePrefix: string := "Remote "

  predicate IsRemoteKey(key: string) {
    |RemotePrefix| <= |key| && key[..|RemotePrefix|] == RemotePrefix
  }

  /** `GetTargetManifest`: five of the seven option keys, each with its type,
      default and rendering flags. */
  function Manifest(): (m: map<string, TargetProperty>)
    ensures m.Keys == {HostnameKey, PortKey, UserKey, PasswordKey, SockPathKey}
    ensures m.Keys < OptionKeys && PrivateKeyKey !in m && WorkspaceDataDirKey !in m
  {
    map[
      HostnameKey := TargetProperty(StringType, "localhost", "", LocalOnlyPattern, false),
      PortKey := TargetProperty(IntType, "2223", "", LocalOnlyPattern, false),
      UserKey := TargetProperty(StringType, "Docker", "Note: non-root user required", LocalOnlyPattern, false),
      PasswordKey := TargetProperty(StringType, "daytona123", "", LocalOnlyPattern, true),
      SockPathKey := TargetProperty(StringType, "/var/run/docker.sock", "", "", false)
    ]
  }

  /** The remote properties, and only they, are disabled for `local`; the
      password is the only masked input and the port the only integer. */
  lemma ManifestRendering(key: string)
    requires key in Manifest()
    ensures IsRemoteKey(key) <==> Manifest()[key].disabledPredicate == LocalOnlyPattern
    ensures !IsRemoteKey(key) ==> Manifest()[key].disabledPredicate == ""
    ensures Manifest()[key].inputMasked <==> key == PasswordKey
    ensures Manifest()[key].propertyType == IntType <==> key == PortKey
  {
    assert IsRemoteKey(HostnameKey) && IsRemoteKey(PortKey) && IsRemoteKey(UserKey);
    assert IsRemoteKey(PasswordKey);
    assert SockPathKey[0] != RemotePrefix[0];
  }

  /** The defaults offered to the user; the port's is the decimal text of 2223. */
  lemma ManifestDefaults()
    ensures Manifest()[HostnameKey].defaultValue == "localhost"
    ensures Manifest()[UserKey].defaultValue == "Docker"
    ensures Manifest()[PasswordKey].defaultValue == "daytona123"
    ensures Manifest()[SockPathKey].defaultValue == "/var/run/docker.sock"
    ensures Manifest()[PortKey].defaultValue == "2223"
    ensures Strings.ParseDecimal(Manifest()[PortKey].defaultValue) == Some(2223)
  {
    assert "2223"[..3] == "222";
    assert "222"[..2] == "22";
    assert "22"[..1] == "2";
  }

  /** Whether a property is hidden for a target. The pattern is read as an
      anchored literal, which is what every pattern in the manifest is. */
  predicate DisabledFor(p: TargetProperty, targetName: string) {
    p.disabledPredicate == "^" + targetName + "$"
  }

  /** Exactly the four remote properties are hidden, and only for `local`. */
  lemma ManifestDisabledOnlyForLocal(key: string, targetName: string)
    requires key in Manifest()
    ensures DisabledFor(Manifest()[key], targetName) <==> IsRemoteKey(key) && targetName == LocalTargetName
  {
    var m := Manifest();
    ManifestRendering(key);
    var pattern := "^" + targetName + "$";
    if m[key].disabledPredicate == pattern {
      assert IsRemoteKey(key);
      assert |pattern| == |LocalOnlyPattern|;
      assert targetName == pattern[1..|pattern| - 1];
      assert LocalTargetName == LocalOnlyPattern[1..|LocalOnlyPattern| - 1];
    }
  }

  /*** JSON values ***/

  datatype JsonValue =
    | JNull
    | JBool(b: bool)
    /** A number written without fraction or exponent. */
    | JInt(n: int)
    /** Any other number; its value never matters here. */
    | JFloat
    | JString(s: string)
    | JArray(items: seq<JsonValue>)
    | JObject(fields: map<string, JsonValue>)

  /** A target's options text, as the outcome of decoding its JSON syntax. */
  type OptionsJson = Result<JsonValue, Error>

  /** The kind name `encoding/json` reports in a type error. */
  function KindName(v: JsonValue): string {
    match v
    case JNull => "null"
    case JBool(_) => "bool"
    case JInt(_) => "number"
    case JFloat => "number"
    case JString(_) => "string"
    case JArray(_) => "array"
    case JObject(_) => "object"
  }

  /** Go's `int` on a 64-bit platform. */
  predicate IsGoInt(n: int) {
    -0x8000_0000_0000_0000 <= n < 0x8000_0000_0000_0000
  }

  /** The Go type of a field. */
  function GoTypeName(f: Field): string {
    if f == RemotePort then "int" else "string"
  }

  /** A value `encoding/json` can store into the field: `null` (which leaves
      the pointer nil) or a value of the field's type. */
  predicate Fits(f: Field, v: JsonValue) {
    v.JNull? || (if f == RemotePort then v.JInt? && IsGoInt(v.n) else v.JString?)
  }

  /** The value of a field, as the JSON it is read from. */
  function FieldValue(o: TargetOptions, f: Field): Option<JsonValue> {
    match f
    case RemoteHostname => StringValue(o.remoteHostname)
    case RemotePort => if o.remotePort.Some? then Some(JInt(o.remotePort.value)) else None
    case RemoteUser => StringValue(o.remoteUser)
    case RemotePassword => StringValue(o.remotePassword)
    case RemotePrivateKey => StringValue(o.remotePrivateKey)
    case SockPath => StringValue(o.sockPath)
    case WorkspaceDataDir => StringValue(o.workspaceDataDir)
  }

  function StringValue(s: Option<string>): Option<JsonValue> {
    if s.Some? then Some(JString(s.value)) else None
  }

  /** The value an object holds for a field; an absent key reads as `null`,
      which has the same effect on a pointer field. */
  function Entry(fields: map<string, JsonValue>, f: Field): JsonValue {
    if Key(f) in fields then fields[Key(f)] else JNull
  }

  function NonNull(v: JsonValue): Option<JsonValue> {
    if v.JNull? then None else Some(v)
  }

  /*** Parsing ***/

  function DecodeError(f: Field, v: JsonValue): Error {
    UnmarshalType(KindName(v), Key(f), GoTypeName(f))
  }

  /** Stores a JSON value into a `*string` field; `null` leaves it nil. */
  function DecodeString(f: Field, v: JsonValue): Result<Option<string>, Error> {
    match v
    case JNull => Success(None)
    case JString(s) => Success(Some(s))
    case _ => Failure(DecodeError(f, v))
  }

  /** Stores a JSON value into the `*int` field; `null` leaves it nil. */
  function DecodeInt(v: JsonValue): Result<Option<int>, Error> {
    match v
    case JNull => Success(None)
    case JInt(n) => if IsGoInt(n) then Success(Some(n)) else Failure(DecodeError(RemotePort, v))
    case _ => Failure(DecodeError(RemotePort, v))
  }

  function StringField(fields: map<string, JsonValue>, f: Field): Result<Option<string>, Error> {
    DecodeString(f, Entry(fields, f))
  }

  /** Fills the record from an object's fields, one tagged field after the
      other; keys that name no field are ignored. */
  function DecodeObject(fields: map<string, JsonValue>): Result<TargetOptions, Error> {
    var hostname :- StringField(fields, RemoteHostname);
    var port :- DecodeInt(Entry(fields, RemotePort));
    var user :- StringField(fields, RemoteUser);
    var password :- StringField(fields, RemotePassword);
    var privateKey :- StringField(fields, RemotePrivateKey);
    var sockPath :- StringField(fields, SockPath);
    var dataDir :- StringField(fields, WorkspaceDataDir);
    Success(TargetOptions(hostname, port, user, password, privateKey, sockPath, dataDir))
  }

  /** `ParseTargetOptions`: `json.Unmarshal` into a fresh record. A syntax
      error comes back unchanged; a top-level `null` leaves every field nil;
      any other non-object is a type error; in an object every field is set
      from its own key alone (absent or `null` leaves it nil), and a value of
      the wrong type fails the whole parse with a type error naming its key. */
  function ParseTargetOptions(json: OptionsJson): (r: Result<TargetOptions, Error>)
    ensures json.Failure? ==> r == Failure(json.error)
    ensures json == Success(JNull) ==> r == Success(NoOptions)
    ensures json.Success? && !json.value.JNull? && !json.value.JObject? ==>
      r == Failure(UnmarshalType(KindName(json.value), "", "types.TargetOptions"))
    ensures json.Success? && json.value.JObject? ==>
      var fields := json.value.fields;
      && (r.Success? <==> forall f: Field :: Fits(f, Entry(fields, f)))
      && (r.Success? ==> forall f: Field :: FieldValue(r.value, f) == NonNull(Entry(fields, f)))
      && (r.Failure? ==> exists f: Field ::
            Key(f) in fields && !Fits(f, fields[Key(f)]) && r.error == DecodeError(f, fields[Key(f)]))
  {
    match json
    case Failure(e) => Failure(e)
    case Success(JNull) => Success(NoOptions)
    case Success(JObject(fields)) =>
      DecodeObjectSpec(fields);
      DecodeObject(fields)
    case Success(v) => Failure(UnmarshalType(KindName(v), "", "types.TargetOptions"))
  }

  /** What decoding one field does, whatever its Go type. */
  ghost predicate DecodesField(fields: map<string, JsonValue>, f: Field, r: Result<Option<JsonValue>, Error>) {
    && (r.Success? <==> Fits(f, Entry(fields, f)))
    && (r.Success? ==> r.value == NonNull(Entry(fields, f)))
    && (r.Failure? ==> Key(f) in fields && r.error == DecodeError(f, fields[Key(f)]))
  }

  function StringAsJson(r: Result<Option<string>, Error>): Result<Option<JsonValue>, Error> {
    match r
    case Success(s) => Success(StringValue(s))
    case Failure(e) => Failure(e)
  }

  function IntAsJson(r: Result<Option<int>, Error>): Result<Option<JsonValue>, Error> {
    match r
    case Success(n) => Success(if n.Some? then Some(JInt(n.value)) else None)
    case Failure(e) => Failure(e)
  }

  lemma StringFieldDecodes(fields: map<string, JsonValue>, f: Field)
    requires f != RemotePort
    ensures DecodesField(fields, f, StringAsJson(StringField(fields, f)))
  {
  }

  lemma IntFieldDecodes(fields: map<string, JsonValue>)
    ensures DecodesField(fields, RemotePort, IntAsJson(DecodeInt(Entry(fields, RemotePort))))
  {
  }

  lemma DecodeObjectSpec(fields: map<string, JsonValue>)
    ensures DecodeObject(fields).Success? <==> forall f: Field :: Fits(f, Entry(fields, f))
    ensures DecodeObject(fields).Success? ==>
      forall f: Field :: FieldValue(DecodeObject(fields).value, f) == NonNull(Entry(fields, f))
    ensures DecodeObject(fields).Failure? ==> exists f: Field ::
      Key(f) in fields && !Fits(f, fields[Key(f)]) && DecodeObject(fields).error == DecodeError(f, fields[Key(f)])
  {
    var h := StringField(fields, RemoteHostname);
    var p := DecodeInt(Entry(fields, RemotePort));
    var u := StringField(fields, RemoteUser);
    var pw := StringField(fields, RemotePassword);
    var pk := StringField(fields, RemotePrivateKey);
    var sp := StringField(fields, SockPath);
    var wd := StringField(fields, WorkspaceDataDir);
    StringFieldDecodes(fields, RemoteHostname);
    IntFieldDecodes(fields);
    StringFieldDecodes(fields, RemoteUser);
    StringFieldDecodes(fields, RemotePassword);
    StringFieldDecodes(fields, RemotePrivateKey);
    StringFieldDecodes(fields, SockPath);
    StringFieldDecodes(fields, WorkspaceDataDir);
    var r := DecodeObject(fields);
    if h.Failure? {
      assert !Fits(RemoteHostname, Entry(fields, RemoteHostname));
    } else if p.Failure? {
      assert !Fits(RemotePort, Entry(fields, RemotePort));
    } else if u.Failure? {
      assert !Fits(RemoteUser, Entry(fields, RemoteUser));
    } else if pw.Failure? {
      assert !Fits(RemotePassword, Entry(fields, RemotePassword));
    } else if pk.Failure? {
      assert !Fits(RemotePrivateKey, Entry(fields, RemotePrivateKey));
    } else if sp.Failure? {
      assert !Fits(SockPath, Entry(fields, SockPath));
    } else if wd.Failure? {
      assert !Fits(WorkspaceDataDir, Entry(fields, WorkspaceDataDir));
    } else {
      assert r == Success(TargetOptions(h.value, p.value, u.value, pw.value, pk.value, sp.value, wd.value));
      forall f: Field
        ensures Fits(f, Entry(fields, f)) && FieldValue(r.value, f) == NonNull(Entry(fields, f))
      {
        match f
        case RemoteHostname =>
        case RemotePort =>
        case RemoteUser =>
        case RemotePassword =>
        case RemotePrivateKey =>
        case SockPath =>
        case WorkspaceDataDir =>
      }
    }
  }

  /*** The inverse: writing options out ***/

  function EncodeField(o: TargetOptions, f: Field): map<string, JsonValue> {
    if FieldValue(o, f).Some? then map[Key(f) := FieldValue(o, f).value] else map[]
  }

  /** Every field, in declaration order. */
  const AllFields: seq<Field> :=
    [RemoteHostname, RemotePort, RemoteUser, RemotePassword, RemotePrivateKey, SockPath, WorkspaceDataDir]

  lemma InAllFields(f: Field)
    ensures f in AllFields
  {
    match f
    case RemoteHostname => assert AllFields[0] == f;
    case RemotePort => assert AllFields[1] == f;
    case RemoteUser => assert AllFields[2] == f;
    case RemotePassword => assert AllFields[3] == f;
    case RemotePrivateKey => assert AllFields[4] == f;
    case SockPath => assert AllFields[5] == f;
    case WorkspaceDataDir => assert AllFields[6] == f;
  }

  /** The union of the entries of the fields in `fs`. */
  function EncodeFields(o: TargetOptions, fs: seq<Field>): (fields: map<string, JsonValue>)
    ensures fields.Keys <= OptionKeys
    ensures forall k | k in fields :: !fields[k].JNull?
    decreases |fs|
  {
    if |fs| == 0 then map[] else EncodeFields(o, fs[..|fs| - 1]) + EncodeField(o, fs[|fs| - 1])
  }

  /** A field's entry survives the union, since no other field shares its tag. */
  lemma {:induction false} EncodeFieldsEntry(o: TargetOptions, fs: seq<Field>, f: Field)
    ensures NonNull(Entry(EncodeFields(o, fs), f)) == if f in fs then FieldValue(o, f) else None
    decreases |fs|
  {
    if |fs| > 0 {
      var init := fs[..|fs| - 1];
      var g := fs[|fs| - 1];
      EncodeFieldsEntry(o, init, f);
      assert f in fs <==> f in init || f == g;
      if g != f {
        KeysDistinct(g, f);
        assert Key(f) !in EncodeField(o, g);
        assert Entry(EncodeFields(o, fs), f) == Entry(EncodeFields(o, init), f);
      }
    }
  }

  /** The JSON object a record marshals to when nil fields are omitted: it
      holds exactly the tags of the non-nil fields, each with its value. */
  function Encode(o: TargetOptions): (fields: map<string, JsonValue>)
    ensures fields.Keys <= OptionKeys
    ensures forall f: Field :: NonNull(Entry(fields, f)) == FieldValue(o, f)
    ensures forall k | k in fields :: !fields[k].JNull?
    ensures forall f: Field :: Key(f) in fields <==> FieldValue(o, f).Some?
  {
    var fields := EncodeFields(o, AllFields);
    forall f: Field
      ensures NonNull(Entry(fields, f)) == FieldValue(o, f)
    {
      EncodeFieldsEntry(o, AllFields, f);
      InAllFields(f);
    }
    fields
  }

  /** Parsing what a record marshals to gives the record back, provided its
      port fits Go's `int`. */
  lemma ParseInvertsEncode(o: TargetOptions)
    requires o.remotePort.Some? ==> IsGoInt(o.remotePort.value)
    ensures ParseTargetOptions(Success(JObject(Encode(o)))) == Success(o)
  {
    var fields := Encode(o);
    forall f: Field
      ensures Fits(f, Entry(fields, f))
    {
      EncodedValueFits(o, f, Entry(fields, f));
    }
    var r := ParseTargetOptions(Success(JObject(fields)));
    FieldValuesDetermineOptions(r.value, o);
  }

  /** A field's own value, or `null`, fits the field. */
  lemma EncodedValueFits(o: TargetOptions, f: Field, v: JsonValue)
    requires o.remotePort.Some? ==> IsGoInt(o.remotePort.value)
    requires NonNull(v) == FieldValue(o, f)
    ensures Fits(f, v)
  {
  }

  /** A record is determined by its field values. */
  lemma FieldValuesDetermineOptions(a: TargetOptions, b: TargetOptions)
    requires forall f: Field :: FieldValue(a, f) == FieldValue(b, f)
    ensures a == b
  {
    assert FieldValue(a, RemoteHostname) == FieldValue(b, RemoteHostname);
    assert FieldValue(a, RemotePort) == FieldValue(b, RemotePort);
    assert FieldValue(a, RemoteUser) == FieldValue(b, RemoteUser);
    assert FieldValue(a, RemotePassword) == FieldValue(b, RemotePassword);
    assert FieldValue(a, RemotePrivateKey) == FieldValue(b, RemotePrivateKey);
    assert FieldValue(a, SockPath) == FieldValue(b, SockPath);
    assert FieldValue(a, WorkspaceDataDir) == FieldValue(b, WorkspaceDataDir);
  }

  /** Keys that name no field, and `null` values, have no effect on the parse. */
  lemma ParseIgnoresUnknownKeysAndNulls(fields: map<string, JsonValue>)
    ensures ParseTargetOptions(Success(JObject(fields)))
         == ParseTargetOptions(Success(JObject(map k | k in fields && k in OptionKeys && !fields[k].JNull? :: fields[k])))
  {
    var known := map k | k in fields && k in OptionKeys && !fields[k].JNull? :: fields[k];
    forall f: Field
      ensures Entry(known, f) == Entry(fields, f)
    {
    }
    assert DecodeObject(known) == DecodeObject(fields);
  }
}

=== FILE: wrappers.dfy ===
/** Option and Result, the two failure-compatible shapes the model uses for Go's
    nil-able pointers and its `(value, error)` returns. Both work with `:-`. */
module Wrappers {

  /** A Go pointer field: `None` is nil. */
  datatype Option<+T> = None | Some(value: T) {

    predicate IsFailure() {
      None?
    }

    function PropagateFailure<U>(): Option<U>
      requires None?
    {
      None
    }

    function Extract(): T
      requires Some?
    {
      value
    }
  }

  /** A Go `(value, error)` pair in which exactly one side is meaningful. */
  datatype Result<+R, +E> = Success(value: R) | Failure(error: E) {

    predicate IsFailure() {
      Failure?
    }

    function PropagateFailure<U>(): Result<U, E>
      requires Failure?
    {
      Failure(error)
    }

    function Extract(): R
      requires Success?
    {
      value
    }
  }
}
